=== FILE: README.md ===
# Populate's `ArrayDataProvider`, modelled in Dafny

Populate backs table and collection views with an observable array. An
`ArrayDataProvider` keeps an unsorted, unfiltered master list of records. It
derives named sections from that list: the records are sorted by a chain of
comparators, filtered by an optional predicate, and grouped by a section key.
Every mutation notifies three optional handlers: reload, section change and
item change. A `DataCoordinator` turns those notifications into batch-update
commands on the view.

This project models that core as pure Dafny functions over immutable state.

- **Operations.** Each provider operation returns the next state and the
  notifications it sent, in order. A handler is a flag on the state. A
  notification appears only when its handler is attached.
- **Equality and keys.** The record type's `==` is a field `same` of the
  state. The key-path lookup is a function `sectionKey` from a record to its
  section name; it is the constant `""` when there is no key path.
- **Sorting.** `sort` is modelled by one fixed stable insertion sort; no
  contract depends on its tie order. The contracts only claim what any
  Swift sort guarantees: a permutation that is sorted under a strict weak
  order.
- **What notifications mean.** A notification is read as a change to the row
  counts of the sections (`DataProvider.ApplyEvent`, `DataProvider.Replay`).
  The main properties state that an operation's notifications, replayed on
  the old row counts, give the new ones. They also state that the
  coordinator's commands change a view's row counts in exactly the same way.

Modules, in dependency order:

- `Optional`, `Sequences`, `Ordering`: the option type, first-index search,
  filter, and the sorted-permutation sort.
- `InsertionIndex`: the binary search.
- `SectionInfo`: the section record, its name-based equality, its hash, and
  `contains`.
- `DataProvider`: the change kinds, the notifications, and their meaning as
  row-count changes. The datatype `ChangeType` has exactly the four kinds
  Insert, Delete, Move and Update. A section notification carries one kind
  and one index. An item notification carries one kind and an optional
  source and destination.
- `ArrayDataProvider`: the provider.
- `Partition`: reference definitions of grouping, used to state what
  `reload` builds.
- `ReloadProperties`, `ProviderProperties`: theorems about the provider.
- `DataCoordinator`, `Coordination`: the view side.
- `Findings`: the two defects described below.

Where the library's documentation and its code disagree, the model follows
the code:

- `add` appends the record to the end of its section. It does not filter the
  record or sort it into its section; the first comparator only places a
  newly created section.
- `reload` files records into the sections that already exist. It does not
  start from empty sections, so it is not idempotent (see Findings).
- A new section appended without a comparator is announced at the section
  count after the append (see Findings).
- Both early returns of `reload` leave the item and section handlers
  detached. These are "no reload handler" and "no master list".

## Model

| member | source | states |
|---|---|---|
| Sequences.IndexOf | Pod/Classes/DataProviders/ArrayDataProvider.swift:193-194 | Swift's `indexOf`: the first index holding an element equal to the query, and `None` exactly when no element is equal |
| Sequences.Filter | Pod/Classes/DataProviders/ArrayDataProvider.swift:291-293 | `filter` keeps exactly the elements the predicate accepts, each as often as the input holds it |
| Ordering.SortBy | Pod/Classes/DataProviders/ArrayDataProvider.swift:285-287 | sorting yields a permutation of the input, sorted whenever the comparator is a strict weak order |
| Ordering.SortChain | Pod/Classes/DataProviders/ArrayDataProvider.swift:302-304 | re-sorting by each comparator in turn keeps the records and leaves them sorted by the last comparator |
| Ordering.FilterSorted | Pod/Classes/DataProviders/ArrayDataProvider.swift:285-293 | filtering a sorted list keeps it sorted |
| InsertionIndex.Search | Pod/Classes/Helpers/Array+InsertionIndex.swift:32-44 | each exit of the search loop over a window: either an element equivalent to `elem`, or a slot with a smaller neighbour on the left and a larger one on the right; over a sorted window, every element before the result is smaller and every element from it on is larger |
| InsertionIndex.InsertionIndex | Pod/Classes/Helpers/Array+InsertionIndex.swift:28-45 | the insertion index lies in `0..count`, is 0 for an empty array, and either hits an equivalent element or separates smaller from larger elements |
| InsertionIndex.InsertionIndexSplits | Pod/Classes/Helpers/Array+InsertionIndex.swift:28-45 | on a sorted array no element before the index is after `elem`, and no element from it on is before `elem` |
| InsertionIndex.InsertionIndexKeepsSorted | Pod/Classes/Helpers/Array+InsertionIndex.swift:28-45 | inserting `elem` at the index keeps a sorted array sorted |
| InsertionIndex.InsertionIndexCountsBefore | Pod/Classes/Helpers/Array+InsertionIndex.swift:28-45 | when no element is equivalent to `elem`, the index is the number of elements ordered before it |
| InsertionIndex.InsertionIndexOf | Pod/Classes/Helpers/Array+InsertionIndex.swift:28-45 | the loop as written terminates, since `max - min` decreases on every pass. It returns exactly the index of the recursive search from both of its exits, so the guarantees above hold for it |
| SectionInfo.NewSection | Pod/Classes/Helpers/SectionInfo.swift:76-93 | a new section has the given name, no index title and no items, so its `numberOfItems` (`Section.NumberOfItems`, the length of its record list) is 0 |
| SectionInfo.SameSectionHashesAlike | Pod/Classes/Helpers/SectionInfo.swift:96-112 | section `==` (`SectionInfo.SameSection`) holds exactly when the names are equal, whatever the records and index titles, and sections equal by it have equal hash values, since both depend on the name alone |
| SectionInfo.Contains | Pod/Classes/Helpers/SectionInfo.swift:123-129 | `contains` holds exactly when some section has the same name |
| SectionInfo.SectionNamed | Pod/Classes/DataProviders/ArrayDataProvider.swift:331-335 | the first section with the given name, and `None` exactly when no section has it |
| ProviderProperties.ShapeReportsCounts | Pod/Classes/DataProviders/ArrayDataProvider.swift:145-162 | the row counts that notifications are replayed on are what the data-source queries report: one entry per section (`numberOfSections`), each equal to `numberOfItemsInSection` of that section |
| DataProvider.ApplyEvent | Pod/Classes/DataProviders/DataProvider.swift:27-31 | a section insert at index i is applicable exactly when 0 <= i <= section count, and a delete exactly when i is an existing index; an applied section insert adds one section, an applied delete removes one, and any other applied change keeps the section count |
| DataProvider.ReplayAppend | Pod/Classes/DataProviders/DataProvider.swift:27-31 | replaying a run of notifications is replaying its first part, then the rest on the result; a failure in the first part fails the whole run |
| ArrayDataProvider.Init | Pod/Classes/DataProviders/ArrayDataProvider.swift:73-76 | a new provider holds the given master list and has no sections. Its configuration is the declared defaults: no comparator, no filter, and no key path, so every record maps to section `""`. No handler is attached |
| ArrayDataProvider.ItemAtIndexPath | Pod/Classes/DataProviders/ArrayDataProvider.swift:109-121 | a record comes back exactly when both indices are in range, and it is the record stored there |
| ArrayDataProvider.Locate | Pod/Classes/DataProviders/ArrayDataProvider.swift:130-138 | the first location, section by section, whose record is equal to the query; `None` exactly when no section holds an equal record |
| ArrayDataProvider.IndexPathForItem | Pod/Classes/DataProviders/ArrayDataProvider.swift:130-138 | reading the returned location gives a record equal to the query, with no equal record in an earlier section or earlier in the same section; `None` exactly when no readable location holds an equal record |
| ArrayDataProvider.NumberOfSections | Pod/Classes/DataProviders/ArrayDataProvider.swift:145-147 | the section count covers exactly the section indices that have a title |
| ArrayDataProvider.NumberOfItemsInSection | Pod/Classes/DataProviders/ArrayDataProvider.swift:156-162 | the count covers exactly the item indices that can be read in that section; it is 0 past the last section |
| ArrayDataProvider.TitleForSection | Pod/Classes/DataProviders/ArrayDataProvider.swift:251-257 | a title comes back exactly for existing sections, and it is the section's name |
| ArrayDataProvider.Rank | Pod/Classes/DataProviders/ArrayDataProvider.swift:345 | the rank is absent exactly when there is no master list, and otherwise lies within `0..master list length` |
| ProviderProperties.RankCountsBefore | Pod/Classes/DataProviders/ArrayDataProvider.swift:345 | under a strict weak order, and with no master record equivalent to the new one, the rank is the number of master records ordered before it, whatever order the master list is in |
| ArrayDataProvider.PlaceSection | Pod/Classes/DataProviders/ArrayDataProvider.swift:346-357 | the placement loop stops within `0..section count` |
| ArrayDataProvider.SectionInfoForItem | Pod/Classes/DataProviders/ArrayDataProvider.swift:323-363 | the result is a section named by the record's key, nothing but the sections changes, and every notification is a section insert. An existing section is returned unchanged and silently. Otherwise a new empty section is inserted: at the end when there is no comparator or no section handler, with a notification, when the section handler is attached, at the section count after the append; otherwise at the placement index, with a notification at that index |
| ArrayDataProvider.FileItem | Pod/Classes/DataProviders/ArrayDataProvider.swift:169-171 | the record is appended to its key's section, and every other section is unchanged |
| ArrayDataProvider.AnnounceInsert | Pod/Classes/DataProviders/ArrayDataProvider.swift:179-185 | the end of `add` keeps the master list and the configuration, and sends only item inserts carrying a destination, or a reload |
| ProviderProperties.AnnounceFinds | Pod/Classes/DataProviders/ArrayDataProvider.swift:179-185 | with distinct section names, a record that equals itself and ends section `k` is found by both lookups, so it is announced at section `k` and its first equal record, and nothing reloads |
| ArrayDataProvider.Add | Pod/Classes/DataProviders/ArrayDataProvider.swift:169-186 | the master list gains the record and the configuration is kept. The notifications start with the section announcement; the rest are item inserts carrying a destination, or a reload |
| ArrayDataProvider.Delete | Pod/Classes/DataProviders/ArrayDataProvider.swift:193-210 | the configuration and the handlers are kept |
| ArrayDataProvider.DeleteAt | Pod/Classes/DataProviders/ArrayDataProvider.swift:217-223 | at most one notification, never more sections, and the configuration is kept |
| ArrayDataProvider.UpdateItem | Pod/Classes/DataProviders/ArrayDataProvider.swift:231-242 | only the addressed location changes, and it now reads the new record. Names, section sizes and the master list are kept, and one update is announced at that location |
| ArrayDataProvider.Distribute | Pod/Classes/DataProviders/ArrayDataProvider.swift:295-298 | filing the records changes nothing but the sections |
| ArrayDataProvider.ResortSections | Pod/Classes/DataProviders/ArrayDataProvider.swift:300-306 | re-sorting keeps every section's name, title and records, and leaves each sorted by the last comparator |
| ArrayDataProvider.Prepared | Pod/Classes/DataProviders/ArrayDataProvider.swift:285-293 | the records to file are exactly the master records the filter accepts, with multiplicity, sorted by the first comparator |
| ArrayDataProvider.Reload | Pod/Classes/DataProviders/ArrayDataProvider.swift:266-314 | the configuration and the master list are kept. With no reload handler the sections are kept and nothing is sent, but the item and section handlers are detached. With no master list the sections are cleared, one reload is sent, and those two handlers are detached too. Otherwise exactly one reload notification is sent and they are re-attached |
| ArrayDataProvider.AppendSort | Pod/Classes/DataProviders/ArrayDataProvider.swift:85-88 | the comparator is appended to the chain; the master list, filter, key and reload handler are kept; a reload is announced when a reload handler is attached |
| ArrayDataProvider.SetFilter | Pod/Classes/DataProviders/ArrayDataProvider.swift:97-100 | the filter is replaced; the master list, chain, key and reload handler are kept; a reload is announced when a reload handler is attached |
| ArrayDataProvider.SetSectionKey | Pod/Classes/DataProviders/ArrayDataProvider.swift:51-53 | the section key is replaced; the master list, chain, filter and reload handler are kept; a reload is announced when a reload handler is attached |
| ArrayDataProvider.SetReloadHandler | Pod/Classes/DataProviders/ArrayDataProvider.swift:62-64 | setting the reload handler records whether one is attached and keeps the master list and configuration; attaching it announces a reload, detaching it leaves the sections alone |
| ReloadProperties.AppendSortRegroups | Pod/Classes/DataProviders/ArrayDataProvider.swift:41-43 | with a reload handler and no sections yet, `sort(_:)` groups the master list under the extended chain |
| ReloadProperties.SetFilterRegroups | Pod/Classes/DataProviders/ArrayDataProvider.swift:46-48 | with a reload handler and no sections yet, `filter(_:)` groups the records the new filter accepts |
| ReloadProperties.SetSectionKeyRegroups | Pod/Classes/DataProviders/ArrayDataProvider.swift:51-53 | with a reload handler and no sections yet, a new key path groups the master list by the new key |
| ReloadProperties.SetReloadHandlerRegroups | Pod/Classes/DataProviders/ArrayDataProvider.swift:62-64 | attaching the reload handler to a provider with a master list and no sections builds the grouping of its records: the first load |
| Partition.GroupSections | Pod/Classes/DataProviders/ArrayDataProvider.swift:295-298 | grouping names the sections by key in order of first appearance, with no name twice and no section empty; each section holds exactly its key's records in list order |
| Partition.GroupCovers | Pod/Classes/DataProviders/ArrayDataProvider.swift:295-298 | every record's key names a section, and the sections together hold exactly the records |
| ReloadProperties.FileItemPuts | Pod/Classes/DataProviders/ArrayDataProvider.swift:295-298 | with the section handler detached, filing a record never sends anything, and a new section always goes at the end |
| ReloadProperties.DistributeMerges | Pod/Classes/DataProviders/ArrayDataProvider.swift:295-298 | the filing loop extends each existing section with its key's records and appends one new section per unseen key |
| ReloadProperties.ReloadFromNothingGroups | Pod/Classes/DataProviders/ArrayDataProvider.swift:266-314 | reloading from no sections builds the grouping of the prepared records, re-sorted when the chain has more than one comparator |
| ReloadProperties.ReloadPartitions | Pod/Classes/DataProviders/ArrayDataProvider.swift:266-314 | sections appear in first-seen key order, with distinct names and none empty, and each holds only records of its own key |
| ReloadProperties.ReloadCoversFiltered | Pod/Classes/DataProviders/ArrayDataProvider.swift:266-314 | the sections together hold each filter-accepted master record exactly as often as the master list does, and nothing else |
| ReloadProperties.ReloadOrdersSections | Pod/Classes/DataProviders/ArrayDataProvider.swift:285-306 | with one comparator, each section keeps the sorted order of the master list; with more, each section is sorted by the last comparator |
| ReloadProperties.ReloadKeepsShape | Pod/Classes/DataProviders/ArrayDataProvider.swift:266-314 | reloading keeps section names distinct and sections non-empty |
| ProviderProperties.PlaceSectionStops | Pod/Classes/DataProviders/ArrayDataProvider.swift:346-357 | the new section goes after every section whose running record count is at or below the rank, and before the first one whose running count exceeds it; the comparison at :352 is Swift 2's optional `<` (`ArrayDataProvider.OptionalLess`), under which an absent rank comes before every count, so the placement is then 0 |
| ProviderProperties.PlacementKeepsDistinct | Pod/Classes/DataProviders/ArrayDataProvider.swift:331-359 | creating a section never duplicates a name |
| ProviderProperties.FileItemAddsRecord | Pod/Classes/DataProviders/ArrayDataProvider.swift:169-171 | filing adds exactly that one record to the sections |
| ProviderProperties.FileItemAtEnd | Pod/Classes/DataProviders/ArrayDataProvider.swift:169-171 | an existing section grows by the record at its end; otherwise a section holding only the record is inserted |
| ProviderProperties.AddAnnounces | Pod/Classes/DataProviders/ArrayDataProvider.swift:169-186 | when `==` is reflexive on the record, `add` never falls back to reload. It announces the record at its section and at the first equal record in that section |
| ProviderProperties.AddFilesRecord | Pod/Classes/DataProviders/ArrayDataProvider.swift:169-186 | `add` puts the record at the end of its key's section, or in a new section, and adds exactly that record |
| ProviderProperties.AddKeepsValid | Pod/Classes/DataProviders/ArrayDataProvider.swift:169-186 | `add`, fallback included, keeps names distinct and sections non-empty |
| ProviderProperties.AddReplays | Pod/Classes/DataProviders/ArrayDataProvider.swift:169-186 | replaying an observed `add`'s notifications on the old row counts gives the new ones, when the section exists or a comparator placed it |
| ProviderProperties.DeleteNothing | Pod/Classes/DataProviders/ArrayDataProvider.swift:193-196 | with no master list, no equal master record, or no equal record in any section, `delete` changes and sends nothing |
| ProviderProperties.DeleteFound | Pod/Classes/DataProviders/ArrayDataProvider.swift:193-210 | otherwise the first equal master record and the first equal section record go. An emptied section is removed and announced as a section delete; otherwise an item delete is announced at the old location |
| ProviderProperties.DeleteRemovesOne | Pod/Classes/DataProviders/ArrayDataProvider.swift:193-210 | the master list and the sections each lose exactly one record |
| ProviderProperties.DeleteKeepsValid | Pod/Classes/DataProviders/ArrayDataProvider.swift:193-210 | `delete` keeps names distinct and sections non-empty |
| ProviderProperties.DeleteReplays | Pod/Classes/DataProviders/ArrayDataProvider.swift:193-210 | replaying an observed `delete`'s notifications on the old row counts gives the new ones |
| ProviderProperties.DeleteAtRemovesFirstEqual | Pod/Classes/DataProviders/ArrayDataProvider.swift:217-223 | `delete(atIndexPath:)` removes the first record equal to the one at the path, which may sit before the path; it does nothing when the master list has no equal record |
| ProviderProperties.UpdateReplays | Pod/Classes/DataProviders/ArrayDataProvider.swift:231-242 | `updateItem` keeps every row count, and its notification replays to the same counts |
| ProviderProperties.UpdateKeepsValid | Pod/Classes/DataProviders/ArrayDataProvider.swift:231-242 | `updateItem` keeps names distinct and sections non-empty |
| ProviderProperties.UpdateSwapsRecord | Pod/Classes/DataProviders/ArrayDataProvider.swift:231-242 | the sections lose the old record and gain the new one |
| DataCoordinator.Commands | Pod/Classes/DataCoordinator.swift:93-122 | a full reload exactly for a reload or a location-less item change; nothing exactly for a section move or update; a section insert or delete on its one index; with a location present, an item insert at the destination, a delete or a row reload at the source, and a move as a delete at the source followed by an insert at the destination; the force-unwraps of :112-120 are its precondition `DataCoordinator.Unwrappable` (an item change carries the location its kind unwraps) |
| DataCoordinator.ApplyCommand | Pod/Classes/DataCoordinator.swift:97-101 | an applied section insert adds one section and an applied section delete removes one |
| DataCoordinator.CommandsFollowEvent | Pod/Classes/DataCoordinator.swift:93-122 | a notification's commands change the view's row counts exactly as the notification does |
| DataCoordinator.ForwardFollowsReplay | Pod/Classes/DataCoordinator.swift:93-122 | the same holds over a whole run of notifications |
| Coordination.AddHandled | Pod/Classes/DataCoordinator.swift:104-121 | no notification of `add` makes the item handler unwrap a missing location |
| Coordination.DeleteHandled | Pod/Classes/DataCoordinator.swift:104-121 | no notification of `delete` makes the item handler unwrap a missing location |
| Coordination.UpdateHandled | Pod/Classes/DataCoordinator.swift:104-121 | the notification of `updateItem` carries the source it needs |
| Coordination.ReloadHandled | Pod/Classes/DataCoordinator.swift:93-95 | the reload notification is always handled |
| Coordination.ViewFollowsAdd | Pod/Classes/DataCoordinator.swift:93-122 | driven by an observed `add`, the view's row counts become the provider's section sizes |
| Coordination.ViewFollowsDelete | Pod/Classes/DataCoordinator.swift:93-122 | driven by an observed `delete`, the view's row counts become the provider's section sizes |
| Coordination.ViewFollowsUpdate | Pod/Classes/DataCoordinator.swift:93-122 | driven by `updateItem`, the view keeps its row counts |
| Findings.ReloadTwiceDuplicates | Pod/Classes/DataProviders/ArrayDataProvider.swift:295-298 | as written, a second reload of the one-record provider lists the record twice |
| Findings.RebuildReloadIdempotent | Pod/Classes/DataProviders/ArrayDataProvider.swift:266-314 | the corrected reload, which clears the sections first, is idempotent in state and notifications |
| Findings.RebuildReloadGroups | Pod/Classes/DataProviders/ArrayDataProvider.swift:266-314 | the corrected reload builds the grouping of the prepared records, whatever the sections were before |
| Findings.AppendedSectionAnnouncedPastEnd | Pod/Classes/DataProviders/ArrayDataProvider.swift:339-342 | as written, an appended section is announced one past its own index, a position no view with the old sections has |
| Findings.AddToEmptyMisannounces | Pod/Classes/DataProviders/ArrayDataProvider.swift:169-186 | as written, adding a record to an empty observed provider announces section 1, and the notifications cannot be replayed |
| Findings.FixedSectionInfoForItem | Pod/Classes/DataProviders/ArrayDataProvider.swift:339-342 | the corrected placement announces a new section at the index it was given |
| Findings.FixedAddReplays | Pod/Classes/DataProviders/ArrayDataProvider.swift:169-186 | with the correction, every observed `add` replays to the new row counts |

## Left out

- Key-path lookup: `valueForKeyPath` and string interpolation are reflection. They are replaced by the function `sectionKey` from a record to a section name.
- UIKit: the data view, cell and supplementary-view providers, and the data-source glue are not modelled. The coordinator's view is reduced to its row counts.
- Handler wiring in the coordinator's initializer is not modelled; a handler is a flag.
- Swift's sort algorithm: any sort yielding a sorted permutation is allowed. The model picks one stable insertion sort, and no contract depends on its tie order.
- Integer overflow of `Int` is not modelled; counts and indices are unbounded.
- The no-op in `add` is left out: it inserts the section at its own index and removes it again.
- `delete(atIndexPath:)` and `updateItem` on an empty location, and `numberOfItemsInSection` with a negative index, trap in the library. They are preconditions here.
- Object identity: sections are classes in the library and values here. Every place the library mutates a section through a reference becomes an update of the section sequence.
- ProviderProperties.AddReplays: needs `==` to be reflexive on the added record. It also needs the record's section to exist or a comparator to be set, because the remaining case is the off-by-one finding below.
- ProviderProperties.DeleteReplays: stated for an observed provider, with both change handlers attached. With a handler detached, notifications are missing by design.
- ArrayDataProvider.Delete: its contract covers only what is kept. What it changes is stated by ProviderProperties.DeleteFound, DeleteRemovesOne and DeleteNothing.
- ArrayDataProvider.PlaceSection: its contract states only the range. The stopping rule is ProviderProperties.PlaceSectionStops.
- ReloadProperties.AppendSortRegroups, SetFilterRegroups, SetSectionKeyRegroups and SetReloadHandlerRegroups: stated from no sections, for the same reason as the next line.
- ReloadProperties.ReloadPartitions, ReloadCoversFiltered and ReloadOrdersSections: stated for a reload from no sections, as at first load. From other sections the records are merged into the old sections (ReloadProperties.DistributeMerges), which is the idempotence finding.

## Findings

| source | as written | input that shows it | evidently intended | confidence | as-written member | corrected member |
|---|---|---|---|---|---|---|
| Pod/Classes/DataProviders/ArrayDataProvider.swift:295-298 | `reload` files the prepared records into the sections that already exist | master list `[7]`, no key path, reload handler attached; reload twice gives section `""` holding `[7, 7]` | rebuild the sections from empty on every reload, so that reload is idempotent | not executed | Findings.ReloadTwiceDuplicates | Findings.RebuildReloadIdempotent |
| Pod/Classes/DataProviders/ArrayDataProvider.swift:340-341 | the appended section is announced at `sections.count` after the append | empty master list, no sections, both change handlers attached, no comparator; `add(7)` announces section 1, while the view has no section 0 | announce `sections.count - 1`, the appended section's index | not executed | Findings.AddToEmptyMisannounces | Findings.FixedAddReplays |

=== FILE: array_data_provider.dfy ===
/** `ArrayDataProvider`: a master list of records shown as named sections,
    each a filtered and sorted subset of the list. Every operation is a pure
    transition returning the next state and the notifications the attached
    handlers would have received, in order. */
module ArrayDataProvider {
  import opened Optional
  import opened Sequences
  import Ordering
  import InsertionIndex
  import opened SectionInfo
  import opened DataProvider

  /** The provider's state. `items` is the unsorted, unfiltered master list;
      `itemSort` the comparator chain; `sectionKey` the section name of a
      record (the key-path lookup, "" when there is no key path or no value);
      `same` the record type's `==`. The three flags say whether the reload,
      section-change and item-change handlers are attached. */
  datatype Provider<!T> = Provider(
    items: Option<seq<T>>,
    sections: seq<Section<T>>,
    itemSort: seq<(T, T) -> bool>,
    filter: Option<T -> bool>,
    sectionKey: T -> string,
    same: (T, T) -> bool,
    reloadHandler: bool,
    sectionHandler: bool,
    itemHandler: bool)

  /** The state after an operation and the notifications it sent. */
  datatype Transition<!T> = Transition(next: Provider<T>, events: seq<Event>)

  /** `sectionInfoForItem`'s outcome: the state (possibly with a new section),
      the index of the item's section in it, and the notifications sent. */
  datatype Placement<!T> = Placement(next: Provider<T>, index: nat, events: seq<Event>)

  /** The section name of every record when no key path is set. */
  function NoSectionKey<T>(): T -> string
  {
    (x: T) => ""
  }

  /** `init(items:)`: the given master list, no sections, no configuration. */
  function Init<T(!new)>(items: Option<seq<T>>, same: (T, T) -> bool): (p: Provider<T>)
    ensures p.items == items && p.sections == [] && p.same == same
    ensures p.itemSort == [] && p.filter.None? && forall x :: p.sectionKey(x) == ""
    ensures !p.reloadHandler && !p.sectionHandler && !p.itemHandler
  {
    Provider(items, [], [], None, NoSectionKey(), same, false, false, false)
  }

  /** A notification reaches the caller only through an attached handler. */
  function Emit(attached: bool, e: Event): (r: seq<Event>)
    ensures attached ==> r == [e]
    ensures !attached ==> r == []
  {
    if attached then [e] else []
  }

  // ---------------------------------------------------------------------
  // Queries
  // ---------------------------------------------------------------------

  /** `itemAtIndexPath`: the record at a location, or nothing when either
      index is out of range. */
  function ItemAtIndexPath<T>(p: Provider<T>, ip: IndexPath): (r: Option<T>)
    ensures r.Some? <==> 0 <= ip.section < |p.sections| && 0 <= ip.item < |p.sections[ip.section].items|
    ensures r.Some? ==> r.value == p.sections[ip.section].items[ip.item]
  {
    if !(0 <= ip.section < |p.sections|) then None
    else
      var section := p.sections[ip.section];
      if !(0 <= ip.item < |section.items|) then None
      else Some(section.items[ip.item])
  }

  /** The first location, section by section, holding a record `same` as `x`. */
  function Locate<T>(sections: seq<Section<T>>, x: T, same: (T, T) -> bool): (r: Option<IndexPath>)
    ensures r.Some? ==> 0 <= r.value.section < |sections|
    ensures r.Some? ==> 0 <= r.value.item < |sections[r.value.section].items|
    ensures r.Some? ==> same(sections[r.value.section].items[r.value.item], x)
    ensures r.Some? ==> forall s, i :: 0 <= s < r.value.section && 0 <= i < |sections[s].items| ==>
      !same(sections[s].items[i], x)
    ensures r.Some? ==> forall i :: 0 <= i < r.value.item ==> !same(sections[r.value.section].items[i], x)
    ensures r.None? <==> forall s, i :: 0 <= s < |sections| && 0 <= i < |sections[s].items| ==>
      !same(sections[s].items[i], x)
  {
    if |sections| == 0 then None
    else
      match IndexOf(sections[0].items, x, same)
      case Some(i) => Some(IndexPath(0, i))
      case None =>
        match Locate(sections[1..], x, same)
        case None => None
        case Some(ip) => Some(IndexPath(ip.section + 1, ip.item))
  }

  /** `indexPathForItem`: the lowest section holding a record equal to `x`
      and the first such record in it; reading that location gives back a
      record equal to `x`. */
  function IndexPathForItem<T>(p: Provider<T>, x: T): (r: Option<IndexPath>)
    ensures r.Some? ==> ItemAtIndexPath(p, r.value).Some? && p.same(ItemAtIndexPath(p, r.value).value, x)
    ensures r.Some? ==> forall s, i :: 0 <= s < r.value.section && 0 <= i < |p.sections[s].items| ==>
      !p.same(p.sections[s].items[i], x)
    ensures r.Some? ==> forall i :: 0 <= i < r.value.item ==> !p.same(p.sections[r.value.section].items[i], x)
    ensures r.None? <==> forall ip :: ItemAtIndexPath(p, ip).Some? ==> !p.same(ItemAtIndexPath(p, ip).value, x)
  {
    var r := Locate(p.sections, x, p.same);
    assert r.None? ==> forall ip :: ItemAtIndexPath(p, ip).Some? ==> !p.same(ItemAtIndexPath(p, ip).value, x);
    assert r.Some? ==> ItemAtIndexPath(p, r.value).Some?;
    r
  }

  /** `numberOfSections`: exactly the section indices that have a title. */
  function NumberOfSections<T>(p: Provider<T>): (n: nat)
    ensures forall s :: 0 <= s < n <==> TitleForSection(p, s).Some?
  {
    |p.sections|
  }

  /** `numberOfItemsInSection`: exactly the item indices that can be read in
      that section; 0 for a section past the end. A negative index traps in
      the source. */
  function NumberOfItemsInSection<T>(p: Provider<T>, s: int): (n: nat)
    requires s >= 0
    ensures forall i :: ItemAtIndexPath(p, IndexPath(s, i)).Some? <==> 0 <= i < n
    ensures s >= |p.sections| ==> n == 0
  {
    if s >= |p.sections| then 0 else p.sections[s].NumberOfItems()
  }

  /** `titleForSection`: the section's name, or nothing out of range. */
  function TitleForSection<T>(p: Provider<T>, s: int): (r: Option<string>)
    ensures r.Some? <==> 0 <= s < |p.sections|
    ensures r.Some? ==> r.value == p.sections[s].name
  {
    if 0 <= s < |p.sections| then Some(p.sections[s].name) else None
  }

  // ---------------------------------------------------------------------
  // Section lookup and creation
  // ---------------------------------------------------------------------

  /** Swift's `<` between an optional index and a count: an absent index is
      below every count. */
  predicate OptionalLess(index: Option<int>, count: int)
  {
    index.None? || index.value < count
  }

  /** The placement loop of `sectionInfoForItem`: walk the sections adding
      up their item counts and stop at the first section whose running total
      exceeds `index`. */
  function PlaceSection<T>(sections: seq<Section<T>>, index: Option<int>, count: int): (k: nat)
    ensures k <= |sections|
  {
    if |sections| == 0 then 0
    else
      var total := count + sections[0].NumberOfItems();
      if OptionalLess(index, total) then 0
      else 1 + PlaceSection(sections[1..], index, total)
  }

  /** The rank `sectionInfoForItem` places a new section by: where the
      record would go in the master list sorted by the first comparator, or
      nothing when there is no master list. */
  function Rank<T(!new)>(p: Provider<T>, x: T): (r: Option<int>)
    requires |p.itemSort| > 0
    ensures r.None? <==> p.items.None?
    ensures r.Some? ==> 0 <= r.value <= |p.items.value|
  {
    match p.items
    case None => None
    case Some(xs) =>
      var sorted := Ordering.SortBy(p.itemSort[0], xs);
      Some(InsertionIndex.InsertionIndex(sorted, x, p.itemSort[0]) as int)
  }

  /** `sectionInfoForItem`: the existing section named by the record's key,
      or a new one. A new section is appended (and announced with the section
      count after the append) unless a comparator and a section handler are
      both present; then it goes where the record's rank in the sorted master
      list falls among the running section counts. */
  function SectionInfoForItem<T(!new)>(p: Provider<T>, x: T): (r: Placement<T>)
    ensures r.index < |r.next.sections| && r.next.sections[r.index].name == p.sectionKey(x)
    ensures r.next == p.(sections := r.next.sections)
    ensures forall i :: 0 <= i < |r.events| ==> r.events[i].SectionChanged? && r.events[i].sectionChange == Insert
    ensures SectionNamed(p.sections, p.sectionKey(x)).Some? ==>
      r.next.sections == p.sections && r.index == SectionNamed(p.sections, p.sectionKey(x)).value && r.events == []
    ensures SectionNamed(p.sections, p.sectionKey(x)).None? ==>
      && r.index <= |p.sections|
      && r.next.sections == InsertAt(p.sections, r.index, NewSection(p.sectionKey(x)))
      && (!p.sectionHandler || |p.itemSort| == 0 ==> r.index == |p.sections|)
      && (!p.sectionHandler ==> r.events == [])
      && (p.sectionHandler && |p.itemSort| == 0 ==> r.events == [SectionChanged(Insert, |p.sections| + 1)])
      && (p.sectionHandler && |p.itemSort| > 0 ==> r.events == [SectionChanged(Insert, r.index)])
  {
    var name := p.sectionKey(x);
    match SectionNamed(p.sections, name)
    case Some(i) => Placement(p, i, [])
    case None =>
      var section := NewSection(name);
      if |p.itemSort| == 0 || !p.sectionHandler then
        var sections := p.sections + [section];
        assert sections == InsertAt(p.sections, |p.sections|, section);
        Placement(p.(sections := sections), |p.sections|, Emit(p.sectionHandler, SectionChanged(Insert, |sections|)))
      else
        var k := PlaceSection(p.sections, Rank(p, x), 0);
        Placement(p.(sections := InsertAt(p.sections, k, section)), k, [SectionChanged(Insert, k)])
  }

  /** The first two lines of `add`, shared with the loop of `reload`: find or
      create the record's section and append the record to it. */
  function FileItem<T(!new)>(p: Provider<T>, x: T): (r: Placement<T>)
    ensures r.index < |r.next.sections| && r.next.sections[r.index].name == p.sectionKey(x)
    ensures r.next == p.(sections := r.next.sections)
    ensures r.events == SectionInfoForItem(p, x).events
    ensures var placed := SectionInfoForItem(p, x).next.sections;
      && |r.next.sections| == |placed| && r.index == SectionInfoForItem(p, x).index
      && r.next.sections[r.index].items == placed[r.index].items + [x]
      && forall j :: 0 <= j < |placed| && j != r.index ==> r.next.sections[j] == placed[j]
  {
    var placed := SectionInfoForItem(p, x);
    var k := placed.index;
    var section := placed.next.sections[k];
    var sections := placed.next.sections[k := section.(items := section.items + [x])];
    Placement(placed.next.(sections := sections), k, placed.events)
  }

  // ---------------------------------------------------------------------
  // Mutations
  // ---------------------------------------------------------------------

  /** The master list with a record appended, when there is one. */
  function AppendToMaster<T>(items: Option<seq<T>>, x: T): (r: Option<seq<T>>)
    ensures r.None? <==> items.None?
    ensures r.Some? ==> r.value == items.value + [x]
  {
    match items
    case None => None
    case Some(xs) => Some(xs + [x])
  }

  /** The end of `add`, once the record is filed into section `k` of `q`:
      look the section and the record up again and announce the record at
      the location found, or reload when either lookup fails. The result
      keeps the master list and the configuration, and its notifications
      are item inserts carrying a destination or the reload notification. */
  function AnnounceInsert<T(!new)>(q: Provider<T>, k: nat, x: T): (r: Transition<T>)
    requires k < |q.sections|
    ensures r.next.items == q.items && r.next.itemSort == q.itemSort && r.next.filter == q.filter
    ensures r.next.sectionKey == q.sectionKey && r.next.same == q.same
    ensures r.next.reloadHandler == q.reloadHandler
    ensures forall i :: 0 <= i < |r.events| ==>
      r.events[i] == Reloaded || (r.events[i].ItemChanged? && r.events[i].itemChange == Insert && r.events[i].destination.Some?)
  {
    var section := q.sections[k];
    match (IndexOf(q.sections, section, SameSection), IndexOf(section.items, x, q.same))
    case (Some(si), Some(ii)) =>
      Transition(q, Emit(q.itemHandler, ItemChanged(Insert, None, Some(IndexPath(si, ii)))))
    case _ => Reload(q)
  }

  /** `add`: file the record into its section, append it to the master list,
      then announce it at the location of its section and of the first record
      in that section equal to it. If either lookup fails the provider
      reloads instead. (Inserting and removing the section again at its own
      index, as the source does in between, changes nothing and is left
      out.) */
  function Add<T(!new)>(p: Provider<T>, x: T): (r: Transition<T>)
    ensures r.next.items == AppendToMaster(p.items, x)
    ensures r.next.itemSort == p.itemSort && r.next.filter == p.filter
    ensures r.next.sectionKey == p.sectionKey && r.next.same == p.same
    ensures r.next.reloadHandler == p.reloadHandler
    ensures SectionInfoForItem(p, x).events <= r.events
    ensures forall i :: |SectionInfoForItem(p, x).events| <= i < |r.events| ==>
      r.events[i] == Reloaded || (r.events[i].ItemChanged? && r.events[i].itemChange == Insert && r.events[i].destination.Some?)
  {
    var filed := FileItem(p, x);
    var announced := AnnounceInsert(filed.next.(items := AppendToMaster(p.items, x)), filed.index, x);
    Transition(announced.next, filed.events + announced.events)
  }

  /** `delete(_:)`: nothing happens unless the master list holds a record
      equal to `x` and some section does too. Otherwise the first equal
      record leaves the master list and the first equal record (section by
      section) leaves its section; a section left empty is removed and
      announced as a section delete, otherwise the removal is announced as an
      item delete at the old location. */
  function Delete<T>(p: Provider<T>, x: T): (r: Transition<T>)
    ensures r.next.itemSort == p.itemSort && r.next.filter == p.filter
    ensures r.next.sectionKey == p.sectionKey && r.next.same == p.same
    ensures r.next.reloadHandler == p.reloadHandler && r.next.sectionHandler == p.sectionHandler
    ensures r.next.itemHandler == p.itemHandler
  {
    if p.items.None? then Transition(p, [])
    else
      match (IndexOf(p.items.value, x, p.same), IndexPathForItem(p, x))
      case (Some(mi), Some(ip)) =>
        var items := RemoveAt(p.items.value, mi);
        var section := p.sections[ip.section];
        var remaining := RemoveAt(section.items, ip.item);
        if |remaining| == 0 then
          Transition(p.(items := Some(items), sections := RemoveAt(p.sections, ip.section)),
                     Emit(p.sectionHandler, SectionChanged(ChangeType.Delete, ip.section)))
        else
          Transition(p.(items := Some(items), sections := p.sections[ip.section := section.(items := remaining)]),
                     Emit(p.itemHandler, ItemChanged(ChangeType.Delete, Some(ip), None)))
      case _ => Transition(p, [])
  }

  /** `delete(atIndexPath:)`: delete the record read at `ip`. An empty
      location traps in the source. */
  function DeleteAt<T>(p: Provider<T>, ip: IndexPath): (r: Transition<T>)
    requires ItemAtIndexPath(p, ip).Some?
    ensures |r.events| <= 1 && |r.next.sections| <= |p.sections|
    ensures r.next.itemSort == p.itemSort && r.next.filter == p.filter && r.next.sectionKey == p.sectionKey
  {
    Delete(p, ItemAtIndexPath(p, ip).value)
  }

  /** `updateItem(atIndexPath:withItem:)`: replace the record at `ip` in its
      section (remove it, insert the new one at the same index) without
      regrouping, filtering or sorting, and announce an update at `ip`. An
      empty location traps in the source. */
  function UpdateItem<T>(p: Provider<T>, ip: IndexPath, x: T): (r: Transition<T>)
    requires ItemAtIndexPath(p, ip).Some?
    ensures |r.next.sections| == |p.sections|
    ensures ItemAtIndexPath(r.next, ip) == Some(x)
    ensures forall q :: q != ip ==> ItemAtIndexPath(r.next, q) == ItemAtIndexPath(p, q)
    ensures forall s :: 0 <= s < |p.sections| ==>
      r.next.sections[s].name == p.sections[s].name && |r.next.sections[s].items| == |p.sections[s].items|
    ensures r.next.items == p.items
    ensures r.events == Emit(p.itemHandler, ItemChanged(Update, Some(ip), None))
  {
    var section := p.sections[ip.section];
    var without := RemoveAt(section.items, ip.item);
    var replaced := InsertAt(without, ip.item, x);
    assert replaced == section.items[ip.item := x];
    Transition(p.(sections := p.sections[ip.section := section.(items := replaced)]),
               Emit(p.itemHandler, ItemChanged(Update, Some(ip), None)))
  }

  // ---------------------------------------------------------------------
  // Reload
  // ---------------------------------------------------------------------

  /** The loop of `reload` over the prepared records: file each one in turn. */
  function Distribute<T(!new)>(p: Provider<T>, xs: seq<T>): (r: Provider<T>)
    ensures r == p.(sections := r.sections)
    decreases |xs|
  {
    if |xs| == 0 then p
    else Distribute(FileItem(p, xs[0]).next, xs[1..])
  }

  /** Every section's items re-sorted by each comparator of `cmps` in turn. */
  function ResortSections<T(!new)>(sections: seq<Section<T>>, cmps: seq<(T, T) -> bool>): (r: seq<Section<T>>)
    ensures |r| == |sections|
    ensures forall i :: 0 <= i < |r| ==>
      r[i].name == sections[i].name && r[i].indexTitle == sections[i].indexTitle &&
      multiset(r[i].items) == multiset(sections[i].items)
    ensures |cmps| > 0 && Ordering.StrictWeakOrder(cmps[|cmps| - 1]) ==>
      forall i :: 0 <= i < |r| ==> Ordering.Sorted(cmps[|cmps| - 1], r[i].items)
  {
    seq(|sections|, i requires 0 <= i < |sections| => sections[i].(items := Ordering.SortChain(cmps, sections[i].items)))
  }

  /** The records `reload` distributes: the master list sorted by the first
      comparator (if any), then filtered (if a filter is set). */
  function Prepared<T(!new)>(p: Provider<T>, xs: seq<T>): (r: seq<T>)
    ensures forall y :: multiset(r)[y] == if p.filter.None? || p.filter.value(y) then multiset(xs)[y] else 0
    ensures p.filter.Some? ==> forall k :: 0 <= k < |r| ==> p.filter.value(r[k])
    ensures |p.itemSort| > 0 && Ordering.StrictWeakOrder(p.itemSort[0]) ==> Ordering.Sorted(p.itemSort[0], r)
  {
    var sorted := if |p.itemSort| > 0 then Ordering.SortBy(p.itemSort[0], xs) else xs;
    match p.filter
    case None => sorted
    case Some(f) =>
      if |p.itemSort| > 0 then
        Ordering.FilterSorted(p.itemSort[0], sorted, f);
        Filter(sorted, f)
      else Filter(sorted, f)
  }

  /** `reload`. The item and section handlers are detached first; with no
      reload handler nothing else happens (and they stay detached). With no
      master list the sections are cleared and the reload handler called
      (they stay detached too). Otherwise the prepared records are filed into
      the sections already present, every section is re-sorted by each
      comparator after the first, the reload handler is called and the two
      handlers are re-attached. */
  function Reload<T(!new)>(p: Provider<T>): (r: Transition<T>)
    ensures r.next.items == p.items && r.next.itemSort == p.itemSort && r.next.filter == p.filter
    ensures r.next.sectionKey == p.sectionKey && r.next.same == p.same
    ensures r.next.reloadHandler == p.reloadHandler
    ensures !p.reloadHandler ==>
      r.next.sections == p.sections && r.events == [] && !r.next.sectionHandler && !r.next.itemHandler
    ensures p.reloadHandler ==> r.events == [Reloaded]
    ensures p.reloadHandler && p.items.None? ==>
      r.next.sections == [] && !r.next.sectionHandler && !r.next.itemHandler
    ensures p.reloadHandler && p.items.Some? ==>
      r.next.sectionHandler == p.sectionHandler && r.next.itemHandler == p.itemHandler
  {
    var detached := p.(sectionHandler := false, itemHandler := false);
    if !p.reloadHandler then Transition(detached, [])
    else
      match p.items
      case None => Transition(detached.(sections := []), [Reloaded])
      case Some(xs) =>
        var grouped := Distribute(detached, Prepared(p, xs));
        var sections :=
          if |p.itemSort| > 1 then ResortSections(grouped.sections, p.itemSort[1..]) else grouped.sections;
        Transition(p.(sections := sections), [Reloaded])
  }

  // ---------------------------------------------------------------------
  // Configuration (each setter triggers a reload)
  // ---------------------------------------------------------------------

  /** `sort(_:)`: append a comparator to the chain, then reload. */
  function AppendSort<T(!new)>(p: Provider<T>, cmp: (T, T) -> bool): (r: Transition<T>)
    ensures r.next.itemSort == p.itemSort + [cmp]
    ensures r.next.items == p.items && r.next.filter == p.filter && r.next.sectionKey == p.sectionKey
    ensures r.next.same == p.same && r.next.reloadHandler == p.reloadHandler
    ensures r.events == (if p.reloadHandler then [Reloaded] else [])
  {
    Reload(p.(itemSort := p.itemSort + [cmp]))
  }

  /** `filter(_:)`: replace the filter, then reload. */
  function SetFilter<T(!new)>(p: Provider<T>, f: T -> bool): (r: Transition<T>)
    ensures r.next.filter == Some(f)
    ensures r.next.items == p.items && r.next.itemSort == p.itemSort && r.next.sectionKey == p.sectionKey
    ensures r.next.same == p.same && r.next.reloadHandler == p.reloadHandler
    ensures r.events == (if p.reloadHandler then [Reloaded] else [])
  {
    Reload(p.(filter := Some(f)))
  }

  /** Setting `sectionNameKeyPath`: replace the key, then reload. */
  function SetSectionKey<T(!new)>(p: Provider<T>, key: T -> string): (r: Transition<T>)
    ensures r.next.sectionKey == key
    ensures r.next.items == p.items && r.next.itemSort == p.itemSort && r.next.filter == p.filter
    ensures r.next.same == p.same && r.next.reloadHandler == p.reloadHandler
    ensures r.events == (if p.reloadHandler then [Reloaded] else [])
  {
    Reload(p.(sectionKey := key))
  }

  /** Setting `reloadHandler`: record whether one is attached, then reload. */
  function SetReloadHandler<T(!new)>(p: Provider<T>, attached: bool): (r: Transition<T>)
    ensures r.next.reloadHandler == attached
    ensures r.next.items == p.items && r.next.itemSort == p.itemSort && r.next.filter == p.filter
    ensures r.next.sectionKey == p.sectionKey && r.next.same == p.same
    ensures !attached ==> r.next.sections == p.sections
    ensures r.events == (if attached then [Reloaded] else [])
  {
    Reload(p.(reloadHandler := attached))
  }
}

=== FILE: coordination.dfy ===
/** A coordinator wired to an array data provider: every notification the
    provider sends can be handled without a failed unwrap, and for the
    mutations whose notifications replay correctly the view's row counts
    follow the provider's sections. */
module Coordination {
  import opened Optional
  import opened SectionInfo
  import opened DataProvider
  import opened ArrayDataProvider
  import opened DataCoordinator
  import ProviderProperties

  /** Every notification in the run can be handled. */
  predicate Handled(events: seq<Event>)
  {
    forall i :: 0 <= i < |events| ==> Unwrappable(events[i])
  }

  /** `reload` sends only the reload notification. */
  lemma ReloadHandled<T(!new)>(p: Provider<T>)
    ensures Handled(Reload(p).events)
  {
  }

  /** `add` sends section inserts, one item insert with a destination, or a
      reload. */
  lemma AddHandled<T(!new)>(p: Provider<T>, x: T)
    ensures Handled(Add(p, x).events)
  {
    PrefixHandled(SectionInfoForItem(p, x).events, Add(p, x).events);
  }

  /** A run that starts with section notifications and goes on with
      reloads and item inserts carrying a destination can be handled. */
  lemma PrefixHandled(placed: seq<Event>, e: seq<Event>)
    requires placed <= e
    requires forall i :: 0 <= i < |placed| ==> placed[i].SectionChanged?
    requires forall i :: |placed| <= i < |e| ==>
      e[i] == Reloaded || (e[i].ItemChanged? && e[i].itemChange == Insert && e[i].destination.Some?)
    ensures Handled(e)
  {
    forall i | 0 <= i < |e|
      ensures Unwrappable(e[i])
    {
      if i < |placed| {
        assert e[i] == placed[i];
      }
    }
  }

  /** `delete` sends a section delete or an item delete with a source. */
  lemma DeleteHandled<T>(p: Provider<T>, x: T)
    ensures Handled(ArrayDataProvider.Delete(p, x).events)
  {
  }

  /** `updateItem` sends an item update with a source. */
  lemma UpdateHandled<T>(p: Provider<T>, ip: IndexPath, x: T)
    requires ItemAtIndexPath(p, ip).Some?
    ensures Handled(UpdateItem(p, ip, x).events)
  {
  }

  /** Driven by an observed `delete`, the view's row counts become the
      provider's new section sizes. */
  lemma ViewFollowsDelete<T>(p: Provider<T>, x: T, current: seq<nat>)
    requires ProviderProperties.Observed(p)
    ensures var r := ArrayDataProvider.Delete(p, x);
      Handled(r.events) && ApplyCommands(Shape(p.sections), Forward(r.events), current) == Some(Shape(r.next.sections))
  {
    var r := ArrayDataProvider.Delete(p, x);
    DeleteHandled(p, x);
    ProviderProperties.DeleteReplays(p, x, current);
    ForwardFollowsReplay(Shape(p.sections), r.events, current);
  }

  /** Driven by `updateItem`, the view keeps its row counts. */
  lemma ViewFollowsUpdate<T>(p: Provider<T>, ip: IndexPath, x: T, current: seq<nat>)
    requires ItemAtIndexPath(p, ip).Some?
    ensures var r := UpdateItem(p, ip, x);
      Handled(r.events) && ApplyCommands(Shape(p.sections), Forward(r.events), current) == Some(Shape(r.next.sections))
  {
    var r := UpdateItem(p, ip, x);
    UpdateHandled(p, ip, x);
    ProviderProperties.UpdateReplays(p, ip, x, current);
    ForwardFollowsReplay(Shape(p.sections), r.events, current);
  }

  /** Driven by an observed `add` whose section exists or is placed by a
      comparator, the view's row counts become the provider's new section
      sizes. */
  lemma ViewFollowsAdd<T(!new)>(p: Provider<T>, x: T, current: seq<nat>)
    requires DistinctNames(p.sections) && p.same(x, x) && ProviderProperties.Observed(p)
    requires SectionNamed(p.sections, p.sectionKey(x)).Some? || |p.itemSort| > 0
    ensures var r := Add(p, x);
      Handled(r.events) && ApplyCommands(Shape(p.sections), Forward(r.events), current) == Some(Shape(r.next.sections))
  {
    var r := Add(p, x);
    AddHandled(p, x);
    ProviderProperties.AddReplays(p, x, current);
    ForwardFollowsReplay(Shape(p.sections), r.events, current);
  }
}

=== FILE: data_coordinator.dfy ===
/** `DataCoordinator`'s handlers: how each notification of a data provider
    becomes batch-update commands on the data view, and what those commands
    do to the view's row counts. */
module DataCoordinator {
  import opened Optional
  import opened DataProvider

  /** The data-view commands the handlers issue. The handlers only ever
      build one-index section sets (`IndexSet(integer:)`) and one-element
      index-path lists, so a section command carries its single index. */
  datatype ViewCommand =
    | ReloadData
    | InsertSections(section: int)
    | DeleteSections(section: int)
    | InsertItems(paths: seq<IndexPath>)
    | DeleteItems(paths: seq<IndexPath>)
    | ReloadItems(paths: seq<IndexPath>)

  /** The item handler force-unwraps the location its change kind needs
      (unless both are absent): an insert its destination, a delete or an
      update its source, a move both. Any other event is always handled. */
  predicate Unwrappable(e: Event)
  {
    e.ItemChanged? && (e.source.Some? || e.destination.Some?) ==>
      match e.itemChange
      case Insert => e.destination.Some?
      case Delete => e.source.Some?
      case Update => e.source.Some?
      case Move => e.source.Some? && e.destination.Some?
  }

  /** The commands issued for one notification. A reload, or an item change
      without any location, reloads the whole view; a section insert or
      delete touches that one section; a section move or update is ignored;
      an item move is a delete at the source followed by an insert at the
      destination. */
  function Commands(e: Event): (r: seq<ViewCommand>)
    requires Unwrappable(e)
    ensures r == [ReloadData] <==> e.Reloaded? || (e.ItemChanged? && e.source.None? && e.destination.None?)
    ensures r == [] <==> e.SectionChanged? && (e.sectionChange == Move || e.sectionChange == Update)
    ensures |r| == 2 <==> e.ItemChanged? && e.itemChange == Move && (e.source.Some? || e.destination.Some?)
    ensures e.SectionChanged? && e.sectionChange == Insert ==> r == [InsertSections(e.sectionIndex)]
    ensures e.SectionChanged? && e.sectionChange == Delete ==> r == [DeleteSections(e.sectionIndex)]
    ensures e.ItemChanged? && (e.source.Some? || e.destination.Some?) ==>
      && (e.itemChange == Insert ==> r == [InsertItems([e.destination.value])])
      && (e.itemChange == Delete ==> r == [DeleteItems([e.source.value])])
      && (e.itemChange == Update ==> r == [ReloadItems([e.source.value])])
      && (e.itemChange == Move ==> r == [DeleteItems([e.source.value]), InsertItems([e.destination.value])])
  {
    match e
    case Reloaded => [ReloadData]
    case SectionChanged(kind, i) =>
      (match kind
       case Insert => [InsertSections(i)]
       case Delete => [DeleteSections(i)]
       case _ => [])
    case ItemChanged(kind, source, destination) =>
      if source.None? && destination.None? then [ReloadData]
      else
        match kind
        case Insert => [InsertItems([destination.value])]
        case Delete => [DeleteItems([source.value])]
        case Move => [DeleteItems([source.value]), InsertItems([destination.value])]
        case Update => [ReloadItems([source.value])]
  }

  /** A batch-update command read as a change to the view's row counts: a
      reload shows `current`, section and item commands add or drop a
      section or a row, a row reload keeps the counts. `None` when a
      command addresses a position the view does not have. */
  function ApplyCommand(rows: seq<nat>, c: ViewCommand, current: seq<nat>): (r: Option<seq<nat>>)
    ensures r.Some? && (c.InsertSections? || c.DeleteSections?) ==>
      |r.value| == |rows| + (if c.InsertSections? then 1 else -1)
  {
    match c
    case ReloadData => Some(current)
    case InsertSections(i) =>
      if 0 <= i <= |rows| then Some(rows[..i] + [0] + rows[i..]) else None
    case DeleteSections(i) =>
      if 0 <= i < |rows| then Some(rows[..i] + rows[i + 1..]) else None
    case InsertItems(paths) =>
      if |paths| == 1 && InsertableAt(rows, paths[0])
      then Some(rows[paths[0].section := rows[paths[0].section] + 1]) else None
    case DeleteItems(paths) =>
      if |paths| == 1 && PresentAt(rows, paths[0])
      then Some(rows[paths[0].section := rows[paths[0].section] - 1]) else None
    case ReloadItems(paths) =>
      if |paths| == 1 && PresentAt(rows, paths[0]) then Some(rows) else None
  }

  /** Commands applied in order. */
  function ApplyCommands(rows: seq<nat>, cs: seq<ViewCommand>, current: seq<nat>): (r: Option<seq<nat>>)
    ensures cs == [] ==> r == Some(rows)
    decreases |cs|
  {
    if |cs| == 0 then Some(rows)
    else
      match ApplyCommand(rows, cs[0], current)
      case None => None
      case Some(next) => ApplyCommands(next, cs[1..], current)
  }

  /** The coordinator is faithful: the commands it issues for a
      notification change the view's row counts exactly as the notification
      changes the provider's. */
  lemma CommandsFollowEvent(rows: seq<nat>, e: Event, current: seq<nat>)
    requires Unwrappable(e)
    ensures ApplyCommands(rows, Commands(e), current) == ApplyEvent(rows, e, current)
  {
    var cs := Commands(e);
    if |cs| == 1 {
      assert cs[1..] == [];
    } else if |cs| == 2 {
      assert cs[1..] == [cs[1]];
      assert cs[1..][1..] == [];
    }
  }

  /** The commands issued for a run of notifications, in order. */
  function Forward(events: seq<Event>): seq<ViewCommand>
    requires forall i :: 0 <= i < |events| ==> Unwrappable(events[i])
  {
    if |events| == 0 then [] else Commands(events[0]) + Forward(events[1..])
  }

  /** Running a batch of commands is running its two halves in turn. */
  lemma {:induction false} ApplyCommandsAppend(rows: seq<nat>, a: seq<ViewCommand>, b: seq<ViewCommand>, current: seq<nat>)
    ensures ApplyCommands(rows, a + b, current) ==
      match ApplyCommands(rows, a, current)
      case None => None
      case Some(mid) => ApplyCommands(mid, b, current)
    decreases |a|
  {
    if |a| > 0 {
      assert (a + b)[0] == a[0] && (a + b)[1..] == a[1..] + b;
      match ApplyCommand(rows, a[0], current)
      case None =>
      case Some(next) => ApplyCommandsAppend(next, a[1..], b, current);
    } else {
      assert a + b == b;
    }
  }

  /** Over a whole run of notifications the view tracks the provider: the
      forwarded commands change the view's row counts exactly as replaying
      the notifications changes the provider's. */
  lemma {:induction false} ForwardFollowsReplay(rows: seq<nat>, events: seq<Event>, current: seq<nat>)
    requires forall i :: 0 <= i < |events| ==> Unwrappable(events[i])
    ensures ApplyCommands(rows, Forward(events), current) == Replay(rows, events, current)
    decreases |events|
  {
    if |events| > 0 {
      CommandsFollowEvent(rows, events[0], current);
      ApplyCommandsAppend(rows, Commands(events[0]), Forward(events[1..]), current);
      match ApplyEvent(rows, events[0], current)
      case None =>
      case Some(next) => ForwardFollowsReplay(next, events[1..], current);
    }
  }
}

=== FILE: data_provider.dfy ===
/** The provider's event vocabulary: change kinds, locations and the three
    notifications (reload, section change, item change). */
module DataProvider {
  import opened Optional

  /** `DataProviderChangeType`. */
  datatype ChangeType = Insert | Delete | Move | Update

  /** `NSIndexPath`: a section index and an item index within it. */
  datatype IndexPath = IndexPath(section: int, item: int)

  /** One notification: the reload handler's call, the section handler's
      `(changeType, sectionIndex)` or the item handler's
      `(changeType, source?, destination?)`. */
  datatype Event =
    | Reloaded
    | SectionChanged(sectionChange: ChangeType, sectionIndex: int)
    | ItemChanged(itemChange: ChangeType, source: Option<IndexPath>, destination: Option<IndexPath>)

  /** The reading of an event as a change to the row counts of the sections:
      a section insert adds an empty section at its index, a section delete
      drops one, an item insert or delete adjusts the count of the addressed
      section, an update or a move within bounds keeps the counts, and a
      reload (or an item event with no location) resynchronises with
      `current`, the counts the provider reports. `None` when the event
      addresses a position that does not exist. */
  function ApplyEvent(rows: seq<nat>, e: Event, current: seq<nat>): (r: Option<seq<nat>>)
    ensures e.SectionChanged? && e.sectionChange == Insert ==>
      (r.Some? <==> 0 <= e.sectionIndex <= |rows|)
    ensures e.SectionChanged? && e.sectionChange == Delete ==>
      (r.Some? <==> 0 <= e.sectionIndex < |rows|)
    ensures r.Some? && !e.Reloaded? && !(e.ItemChanged? && e.source.None? && e.destination.None?) ==>
      |r.value| == |rows| + (if e.SectionChanged? && e.sectionChange == Insert then 1
                             else if e.SectionChanged? && e.sectionChange == Delete then -1 else 0)
  {
    match e
    case Reloaded => Some(current)
    case SectionChanged(Insert, i) =>
      if 0 <= i <= |rows| then Some(rows[..i] + [0] + rows[i..]) else None
    case SectionChanged(Delete, i) =>
      if 0 <= i < |rows| then Some(rows[..i] + rows[i + 1..]) else None
    case SectionChanged(_, _) => Some(rows)
    case ItemChanged(kind, source, destination) =>
      if source.None? && destination.None? then Some(current)
      else
        match kind
        case Insert =>
          if destination.Some? && InsertableAt(rows, destination.value)
          then Some(rows[destination.value.section := rows[destination.value.section] + 1])
          else None
        case Delete =>
          if source.Some? && PresentAt(rows, source.value)
          then Some(rows[source.value.section := rows[source.value.section] - 1])
          else None
        case Update =>
          if source.Some? && PresentAt(rows, source.value) then Some(rows) else None
        case Move =>
          if source.Some? && destination.Some? && PresentAt(rows, source.value) then
            var removed := rows[source.value.section := rows[source.value.section] - 1];
            if InsertableAt(removed, destination.value)
            then Some(removed[destination.value.section := removed[destination.value.section] + 1])
            else None
          else None
  }

  /** `p` names an existing row. */
  predicate PresentAt(rows: seq<nat>, p: IndexPath)
  {
    0 <= p.section < |rows| && 0 <= p.item < rows[p.section]
  }

  /** `p` names an existing row or the position just past the last one. */
  predicate InsertableAt(rows: seq<nat>, p: IndexPath)
  {
    0 <= p.section < |rows| && 0 <= p.item <= rows[p.section]
  }

  /** The events applied in order. */
  function Replay(rows: seq<nat>, events: seq<Event>, current: seq<nat>): (r: Option<seq<nat>>)
    ensures events == [] ==> r == Some(rows)
    decreases |events|
  {
    if |events| == 0 then Some(rows)
    else
      match ApplyEvent(rows, events[0], current)
      case None => None
      case Some(next) => Replay(next, events[1..], current)
  }

  /** Replaying a run is replaying its two halves in turn. */
  lemma {:induction false} ReplayAppend(rows: seq<nat>, a: seq<Event>, b: seq<Event>, current: seq<nat>)
    ensures Replay(rows, a + b, current) ==
      match Replay(rows, a, current)
      case None => None
      case Some(mid) => Replay(mid, b, current)
    decreases |a|
  {
    if |a| > 0 {
      assert (a + b)[0] == a[0] && (a + b)[1..] == a[1..] + b;
      match ApplyEvent(rows, a[0], current)
      case None =>
      case Some(next) => ReplayAppend(next, a[1..], b, current);
    } else {
      assert a + b == b;
    }
  }
}

=== FILE: findings.dfy ===
/** Two places where `ArrayDataProvider` does not do what it evidently
    means to: each as written, with an input that shows it, and corrected,
    with the intended property proved of the correction. */
module Findings {
  import opened Optional
  import opened Sequences
  import opened SectionInfo
  import opened DataProvider
  import opened ArrayDataProvider
  import Partition
  import ReloadProperties
  import ProviderProperties

  /** A provider of integers holding the single record 7, with no key path,
      integer equality, and a reload handler attached. */
  function OneRecord(): (p: Provider<int>)
    ensures p.items == Some([7]) && p.sections == [] && p.reloadHandler
  {
    Init(Some([7]), (a: int, b: int) => a == b).(reloadHandler := true)
  }

  // ---------------------------------------------------------------------
  // reload files into the sections already present
  // ---------------------------------------------------------------------

  /** As written, `reload` files the records into the sections it already
      has, so a second reload of an unchanged provider lists every record
      twice. */
  lemma ReloadTwiceDuplicates()
    ensures Reload(OneRecord()).next.sections == [Section("", None, [7])]
    ensures Reload(Reload(OneRecord()).next).next.sections == [Section("", None, [7, 7])]
  {
    FirstReloadFiles();
    SecondReloadFilesAgain();
  }

  /** The first reload of the one-record provider files 7 under `""`. */
  lemma FirstReloadFiles()
    ensures Reload(OneRecord()).next == OneRecord().(sections := [Section("", None, [7])])
  {
    var p := OneRecord();
    assert p.sectionKey(7) == "";
    assert Prepared(p, [7]) == [7];
    var first := p.(sectionHandler := false, itemHandler := false);
    ProviderProperties.FileItemAtEnd(first, 7);
    assert NewSection<int>("") == Section("", None, []);
    assert FileItem(first, 7).next.sections == [Section("", None, [7])];
    assert [7][1..] == [];
    assert Distribute(first, [7]) == Distribute(FileItem(first, 7).next, []);
  }

  /** Reloading again files 7 a second time into the section it is in. */
  lemma SecondReloadFilesAgain()
    ensures Reload(OneRecord().(sections := [Section("", None, [7])])).next.sections == [Section("", None, [7, 7])]
  {
    var once := OneRecord().(sections := [Section("", None, [7])]);
    assert once.sectionKey(7) == "";
    assert Prepared(once, [7]) == [7];
    var again := once.(sectionHandler := false, itemHandler := false);
    assert SectionNamed(again.sections, "") == Some(0);
    ProviderProperties.FileItemAtEnd(again, 7);
    assert FileItem(again, 7).index == 0;
    assert again.sections[0].items + [7] == [7, 7];
    assert FileItem(again, 7).next.sections == [Section("", None, [7, 7])];
    assert [7][1..] == [];
    assert Distribute(again, [7]) == Distribute(FileItem(again, 7).next, []);
  }

  /** The corrected `reload`: when a reload handler is attached, clear the
      sections before filing the records. */
  function RebuildReload<T(!new)>(p: Provider<T>): (r: Transition<T>)
    ensures r.events == Reload(p).events
    ensures p.reloadHandler ==> r.next.sections == Reload(p.(sections := [])).next.sections
  {
    if p.reloadHandler then Reload(p.(sections := [])) else Reload(p)
  }

  /** The corrected `reload` is idempotent: reloading its result changes
      neither the state nor the notifications. */
  lemma RebuildReloadIdempotent<T(!new)>(p: Provider<T>)
    ensures RebuildReload(RebuildReload(p).next) == RebuildReload(p)
  {
    var q := RebuildReload(p).next;
    if p.reloadHandler && p.items.Some? {
      assert q.(sections := []) == p.(sections := []);
    }
  }

  /** The corrected `reload` rebuilds the sections from the master list
      alone: the prepared records grouped by key, re-sorted when the chain
      has more than one comparator, whatever the sections were before. */
  lemma RebuildReloadGroups<T(!new)>(p: Provider<T>)
    requires p.reloadHandler && p.items.Some?
    ensures var g := Partition.Group(Prepared(p, p.items.value), p.sectionKey);
      RebuildReload(p).next.sections == if |p.itemSort| > 1 then ResortSections(g, p.itemSort[1..]) else g
  {
    ReloadProperties.ReloadFromNothingGroups(p.(sections := []));
  }

  // ---------------------------------------------------------------------
  // The appended section is announced one past its index
  // ---------------------------------------------------------------------

  /** As written, a section appended by `sectionInfoForItem` (no comparator,
      section handler attached) is announced at the section count after the
      append, one past its own index; no view with the old sections has that
      position. */
  lemma AppendedSectionAnnouncedPastEnd<T(!new)>(p: Provider<T>, x: T, current: seq<nat>)
    requires p.sectionHandler && |p.itemSort| == 0
    requires SectionNamed(p.sections, p.sectionKey(x)).None?
    ensures var r := SectionInfoForItem(p, x);
      && r.index == |p.sections|
      && r.events == [SectionChanged(Insert, r.index + 1)]
      && ApplyEvent(Shape(p.sections), r.events[0], current).None?
  {
  }

  /** A provider of integers with an empty master list, no sections, no key
      path, no comparator, integer equality, and both change handlers
      attached. */
  function EmptyObserved(): (p: Provider<int>)
    ensures p.items == Some([]) && p.sections == [] && p.itemSort == []
    ensures p.sectionHandler && p.itemHandler && p.sectionKey(7) == ""
  {
    Init(Some([]), (a: int, b: int) => a == b).(sectionHandler := true, itemHandler := true)
  }

  /** Adding a record to the empty observed provider sends a section insert
      at index 1, and the notifications cannot be replayed on the empty
      view. */
  lemma AddToEmptyMisannounces()
    ensures var r := Add(EmptyObserved(), 7);
      && r.next.sections == [Section("", None, [7])]
      && r.events == [SectionChanged(Insert, 1), ItemChanged(Insert, None, Some(IndexPath(0, 0)))]
      && Replay([], r.events, [1]).None?
  {
    AddToEmptyFiles();
    AddToEmptyAnnounces();
    InsertPastEndFails([SectionChanged(Insert, 1), ItemChanged(Insert, None, Some(IndexPath(0, 0)))]);
  }

  /** Filing 7 into the empty observed provider opens section "" at index
      0 holding just 7. */
  lemma AddToEmptyFiles()
    ensures var f := FileItem(EmptyObserved(), 7);
      f.index == 0 && f.next.sections == [Section("", None, [7])]
  {
    var p := EmptyObserved();
    assert NewSection<int>("") == Section("", None, []);
    ProviderProperties.FileItemAtEnd(p, 7);
  }

  /** `add(7)` on the empty observed provider keeps the filed sections and
      announces section 1, then row 0 of section 0. */
  lemma AddToEmptyAnnounces()
    ensures var r := Add(EmptyObserved(), 7);
      && r.next.sections == [Section("", None, [7])]
      && r.events == [SectionChanged(Insert, 1), ItemChanged(Insert, None, Some(IndexPath(0, 0)))]
  {
    var p := EmptyObserved();
    AddToEmptyFiles();
    ProviderProperties.AddAnnounces(p, 7);
    assert IndexOf([7], 7, p.same) == Some(0);
  }

  /** A run opening with a section insert at index 1 fails on an empty
      view. */
  lemma InsertPastEndFails(events: seq<Event>)
    requires |events| > 0 && events[0] == SectionChanged(Insert, 1)
    ensures Replay([], events, [1]).None?
  {
  }

  /** The corrected `sectionInfoForItem`: a new section is announced at the
      index it was given. */
  function FixedSectionInfoForItem<T(!new)>(p: Provider<T>, x: T): (r: Placement<T>)
    ensures r.next == SectionInfoForItem(p, x).next && r.index == SectionInfoForItem(p, x).index
    ensures SectionNamed(p.sections, p.sectionKey(x)).None? && p.sectionHandler ==>
      r.events == [SectionChanged(Insert, r.index)]
    ensures SectionNamed(p.sections, p.sectionKey(x)).Some? || !p.sectionHandler ==> r.events == []
  {
    var placed := SectionInfoForItem(p, x);
    if SectionNamed(p.sections, p.sectionKey(x)).None? && p.sectionHandler
    then placed.(events := [SectionChanged(Insert, placed.index)])
    else placed
  }

  /** `add` built on the corrected `sectionInfoForItem`. */
  function FixedAdd<T(!new)>(p: Provider<T>, x: T): (r: Transition<T>)
    ensures r.next.items == AppendToMaster(p.items, x)
  {
    var placed := FixedSectionInfoForItem(p, x);
    var filed := FileItem(p, x);
    var announced := AnnounceInsert(filed.next.(items := AppendToMaster(p.items, x)), filed.index, x);
    Transition(announced.next, placed.events + announced.events)
  }

  /** With the correction every observed `add` replays: the notifications
      turn the old row counts into the new ones whether the record's
      section exists, is placed by a comparator, or is appended. */
  lemma FixedAddReplays<T(!new)>(p: Provider<T>, x: T, current: seq<nat>)
    requires DistinctNames(p.sections) && p.same(x, x) && ProviderProperties.Observed(p)
    ensures Replay(Shape(p.sections), FixedAdd(p, x).events, current) == Some(Shape(FixedAdd(p, x).next.sections))
  {
    FixedAddAnnounces(p, x);
    if SectionNamed(p.sections, p.sectionKey(x)).Some? {
      ProviderProperties.AddReplaysExisting(p, x, current);
    } else {
      FixedAddAppends(p, x, current);
    }
  }

  /** The corrected `add` never falls back to reloading when the record
      type's `==` finds the record itself; it announces the placement, then
      the record at its section and the first record there equal to it. */
  lemma FixedAddAnnounces<T(!new)>(p: Provider<T>, x: T)
    requires DistinctNames(p.sections) && p.same(x, x)
    ensures var f := FileItem(p, x);
      var filed := f.next.sections[f.index];
      var r := FixedAdd(p, x);
      && r.next == f.next.(items := AppendToMaster(p.items, x))
      && IndexOf(filed.items, x, p.same).Some?
      && r.events == FixedSectionInfoForItem(p, x).events
           + Emit(p.itemHandler, ItemChanged(Insert, None, Some(IndexPath(f.index, IndexOf(filed.items, x, p.same).value))))
  {
    var f := FileItem(p, x);
    ProviderProperties.FileItemKeepsDistinct(p, x);
    ProviderProperties.AnnounceFinds(f.next.(items := AppendToMaster(p.items, x)), f.index, x);
  }

  /** `FixedAddReplays` for a new section: a section insert at its index,
      then an item insert at its first row. */
  lemma FixedAddAppends<T(!new)>(p: Provider<T>, x: T, current: seq<nat>)
    requires DistinctNames(p.sections) && p.same(x, x) && ProviderProperties.Observed(p)
    requires SectionNamed(p.sections, p.sectionKey(x)).None?
    ensures var f := FileItem(p, x);
      && IndexOf(f.next.sections[f.index].items, x, p.same) == Some(0)
      && Replay(Shape(p.sections), [SectionChanged(Insert, f.index), ItemChanged(Insert, None, Some(IndexPath(f.index, 0)))], current)
         == Some(Shape(f.next.sections))
  {
    var f := FileItem(p, x);
    var k := f.index;
    ProviderProperties.FileItemAtEnd(p, x);
    assert f.next.sections[k].items == [x];
    ProviderProperties.ShapeInsert(p.sections, k, NewSection(p.sectionKey(x)).(items := [x]));
    ProviderProperties.ReplaySectionThenItem(Shape(p.sections), k, current);
  }
}

=== FILE: insertion_index.dfy ===
/** `Array.insertionIndexOf(_:isOrderedBefore:)`: a binary search for the
    position at which an element can be inserted into a sorted array. */
module InsertionIndex {
  import opened Ordering
  import Sequences

  /** Every element left of the window is ordered before `elem`, every
      element right of it is ordered after `elem`. */
  ghost predicate WindowBrackets<T>(a: seq<T>, elem: T, lt: (T, T) -> bool, lo: int, hi: int)
    requires 0 <= lo <= hi + 1 <= |a|
  {
    && (forall k :: 0 <= k < lo ==> lt(a[k], elem))
    && (forall k :: hi < k < |a| ==> lt(elem, a[k]))
  }

  /** The elements just outside the window were compared with `elem` and
      found to be before and after it respectively. */
  predicate EdgesBracket<T>(a: seq<T>, elem: T, lt: (T, T) -> bool, lo: int, hi: int)
    requires 0 <= lo <= hi + 1 <= |a|
  {
    && (lo > 0 ==> lt(a[lo - 1], elem))
    && (hi + 1 < |a| ==> lt(elem, a[hi + 1]))
  }

  /** One run of the search loop over the window `lo..hi` (inclusive), as a
      recursion: each step either narrows the window or stops at an element
      equivalent to `elem`; an empty window yields `lo`. */
  function Search<T(!new)>(a: seq<T>, elem: T, lt: (T, T) -> bool, lo: int, hi: int): (r: int)
    requires 0 <= lo <= hi + 1 <= |a|
    ensures lo <= r <= hi + 1
    ensures EdgesBracket(a, elem, lt, lo, hi) ==>
      || (r < |a| && Equivalent(lt, a[r], elem))
      || ((r > 0 ==> lt(a[r - 1], elem)) && (r < |a| ==> lt(elem, a[r])))
    ensures StrictWeakOrder(lt) && Sorted(lt, a) && WindowBrackets(a, elem, lt, lo, hi) ==>
      || (r < |a| && Equivalent(lt, a[r], elem))
      || ((forall k :: 0 <= k < r ==> lt(a[k], elem)) && (forall k :: r <= k < |a| ==> lt(elem, a[k])))
    decreases hi - lo
  {
    if lo > hi then lo
    else
      var mid := (lo + hi) / 2;
      if lt(a[mid], elem) then
        SearchStepRight(a, elem, lt, lo, hi, mid);
        Search(a, elem, lt, mid + 1, hi)
      else if lt(elem, a[mid]) then
        SearchStepLeft(a, elem, lt, lo, hi, mid);
        Search(a, elem, lt, lo, mid - 1)
      else mid
  }

  lemma SearchStepRight<T(!new)>(a: seq<T>, elem: T, lt: (T, T) -> bool, lo: int, hi: int, mid: int)
    requires 0 <= lo <= mid <= hi < |a| && lt(a[mid], elem)
    ensures StrictWeakOrder(lt) && Sorted(lt, a) && WindowBrackets(a, elem, lt, lo, hi) ==>
      WindowBrackets(a, elem, lt, mid + 1, hi)
  {
    if StrictWeakOrder(lt) && Sorted(lt, a) && WindowBrackets(a, elem, lt, lo, hi) {
      forall k | lo <= k < mid
        ensures lt(a[k], elem)
      {
        assert !lt(a[mid], a[k]);
      }
    }
  }

  lemma SearchStepLeft<T(!new)>(a: seq<T>, elem: T, lt: (T, T) -> bool, lo: int, hi: int, mid: int)
    requires 0 <= lo <= mid <= hi < |a| && lt(elem, a[mid])
    ensures StrictWeakOrder(lt) && Sorted(lt, a) && WindowBrackets(a, elem, lt, lo, hi) ==>
      WindowBrackets(a, elem, lt, lo, mid - 1)
  {
    if StrictWeakOrder(lt) && Sorted(lt, a) && WindowBrackets(a, elem, lt, lo, hi) {
      forall k | mid < k <= hi
        ensures lt(elem, a[k])
      {
        assert !lt(a[k], a[mid]);
      }
    }
  }

  /** The search over the whole array. */
  function InsertionIndex<T(!new)>(a: seq<T>, elem: T, lt: (T, T) -> bool): (r: nat)
    ensures r <= |a|
    ensures |a| == 0 ==> r == 0
    ensures || (r < |a| && Equivalent(lt, a[r], elem))
            || ((r > 0 ==> lt(a[r - 1], elem)) && (r < |a| ==> lt(elem, a[r])))
    ensures StrictWeakOrder(lt) && Sorted(lt, a) ==>
      || (r < |a| && Equivalent(lt, a[r], elem))
      || ((forall k :: 0 <= k < r ==> lt(a[k], elem)) && (forall k :: r <= k < |a| ==> lt(elem, a[k])))
  {
    Search(a, elem, lt, 0, |a| - 1)
  }

  /** Whatever exit the search takes, every element before the result is not
      after `elem` and every element from the result on is not before it. */
  lemma {:induction false} InsertionIndexSplits<T(!new)>(a: seq<T>, elem: T, lt: (T, T) -> bool)
    requires StrictWeakOrder(lt) && Sorted(lt, a)
    ensures var r := InsertionIndex(a, elem, lt);
      && (forall k :: 0 <= k < r ==> !lt(elem, a[k]))
      && (forall k :: r <= k < |a| ==> !lt(a[k], elem))
  {
    var r := InsertionIndex(a, elem, lt);
    if r < |a| && Equivalent(lt, a[r], elem) {
      forall k | 0 <= k < r
        ensures !lt(elem, a[k])
      {
        assert !lt(a[r], a[k]);
      }
      forall k | r <= k < |a|
        ensures !lt(a[k], elem)
      {
        assert k == r || !lt(a[k], a[r]);
      }
    }
  }

  /** Inserting `elem` at the computed index keeps a sorted array sorted. */
  lemma {:induction false} InsertionIndexKeepsSorted<T(!new)>(a: seq<T>, elem: T, lt: (T, T) -> bool)
    requires StrictWeakOrder(lt) && Sorted(lt, a)
    ensures Sorted(lt, Sequences.InsertAt(a, InsertionIndex(a, elem, lt), elem))
  {
    var r := InsertionIndex(a, elem, lt);
    var b := Sequences.InsertAt(a, r, elem);
    InsertionIndexSplits(a, elem, lt);
    forall i, j | 0 <= i < j < |b|
      ensures !lt(b[j], b[i])
    {
      if j < r {
        assert b[i] == a[i] && b[j] == a[j];
      } else if j == r {
        assert b[i] == a[i] && b[j] == elem;
      } else if i < r {
        assert b[i] == a[i] && b[j] == a[j - 1];
      } else if i == r {
        assert b[i] == elem && b[j] == a[j - 1];
      } else {
        assert b[i] == a[i - 1] && b[j] == a[j - 1];
      }
    }
  }

  /** The number of elements ordered before `elem`. */
  function CountBefore<T>(a: seq<T>, elem: T, lt: (T, T) -> bool): nat
  {
    if |a| == 0 then 0
    else (if lt(a[0], elem) then 1 else 0) + CountBefore(a[1..], elem, lt)
  }

  /** A sequence whose first `n` elements are before `elem` and whose rest
      are not has exactly `n` elements before `elem`. */
  lemma {:induction false} CountBeforeOfSplit<T>(a: seq<T>, elem: T, lt: (T, T) -> bool, n: nat)
    requires n <= |a|
    requires forall k :: 0 <= k < n ==> lt(a[k], elem)
    requires forall k :: n <= k < |a| ==> !lt(a[k], elem)
    ensures CountBefore(a, elem, lt) == n
  {
    if |a| > 0 {
      if n > 0 {
        CountBeforeOfSplit(a[1..], elem, lt, n - 1);
      } else {
        CountBeforeOfSplit(a[1..], elem, lt, 0);
      }
    }
  }

  /** With no element equivalent to `elem`, the search cannot stop early and
      its result counts the elements ordered before `elem`. */
  lemma {:induction false} InsertionIndexCountsBefore<T(!new)>(a: seq<T>, elem: T, lt: (T, T) -> bool)
    requires StrictWeakOrder(lt) && Sorted(lt, a)
    requires forall k :: 0 <= k < |a| ==> !Equivalent(lt, a[k], elem)
    ensures InsertionIndex(a, elem, lt) == CountBefore(a, elem, lt)
  {
    var r := InsertionIndex(a, elem, lt);
    forall k | r <= k < |a|
      ensures !lt(a[k], elem)
    {
      assert lt(elem, a[k]);
    }
    CountBeforeOfSplit(a, elem, lt, r);
  }

  /** Counting distributes over concatenation. */
  lemma {:induction false} CountBeforeAppend<T>(a: seq<T>, b: seq<T>, elem: T, lt: (T, T) -> bool)
    ensures CountBefore(a + b, elem, lt) == CountBefore(a, elem, lt) + CountBefore(b, elem, lt)
  {
    if |a| == 0 {
      assert a + b == b;
    } else {
      assert (a + b)[1..] == a[1..] + b;
      CountBeforeAppend(a[1..], b, elem, lt);
    }
  }

  /** The count depends only on which elements there are, not their order. */
  lemma {:induction false} CountBeforePermutation<T>(a: seq<T>, b: seq<T>, elem: T, lt: (T, T) -> bool)
    requires multiset(a) == multiset(b)
    ensures CountBefore(a, elem, lt) == CountBefore(b, elem, lt)
    decreases |a|
  {
    if |a| == 0 {
      assert |multiset(b)| == 0;
    } else {
      assert a[0] in multiset(b);
      var j :| 0 <= j < |b| && b[j] == a[0];
      var rest := b[..j] + b[j + 1..];
      PermutationRest(a, b, j);
      CountBeforePermutation(a[1..], rest, elem, lt);
      CountBeforeRemoveOne(b, j, elem, lt);
    }
  }

  /** Taking the first element off one of two permutations of each other,
      and an equal element off the other, leaves permutations again. */
  lemma PermutationRest<T>(a: seq<T>, b: seq<T>, j: nat)
    requires multiset(a) == multiset(b) && |a| > 0 && j < |b| && b[j] == a[0]
    ensures multiset(a[1..]) == multiset(b[..j] + b[j + 1..])
  {
    assert a == [a[0]] + a[1..];
    assert multiset(a[1..]) == multiset(a) - multiset{a[0]};
    RemoveOneMultiset(b, j);
  }

  /** Removing the element at `j` removes one copy of it from the multiset. */
  lemma RemoveOneMultiset<T>(b: seq<T>, j: nat)
    requires j < |b|
    ensures multiset(b[..j] + b[j + 1..]) == multiset(b) - multiset{b[j]}
  {
    assert b == b[..j] + [b[j]] + b[j + 1..];
  }

  /** Removing the element at `j` lowers the count by one exactly when that
      element is ordered before `elem`. */
  lemma CountBeforeRemoveOne<T>(b: seq<T>, j: nat, elem: T, lt: (T, T) -> bool)
    requires j < |b|
    ensures CountBefore(b, elem, lt) == CountBefore(b[..j] + b[j + 1..], elem, lt) + (if lt(b[j], elem) then 1 else 0)
  {
    var front, back := b[..j], b[j + 1..];
    assert b == front + ([b[j]] + back);
    assert ([b[j]] + back)[1..] == back;
    CountBeforeAppend(front, [b[j]] + back, elem, lt);
    CountBeforeAppend(front, back, elem, lt);
  }

  /** The search as the source writes it: a loop narrowing `min..max`. */
  method InsertionIndexOf<T(!new)>(a: seq<T>, elem: T, lt: (T, T) -> bool) returns (r: nat)
    ensures r == InsertionIndex(a, elem, lt)
  {
    var min := 0;
    var max := |a| - 1;
    while min <= max
      invariant 0 <= min <= max + 1 <= |a|
      invariant Search(a, elem, lt, min, max) == Search(a, elem, lt, 0, |a| - 1)
      decreases max - min
    {
      var mid := (min + max) / 2;
      if lt(a[mid], elem) {
        min := mid + 1;
      } else if lt(elem, a[mid]) {
        max := mid - 1;
      } else {
        return mid;
      }
    }
    return min;
  }
}

=== FILE: optional.dfy ===
/** Swift's `Optional`: a value that may be absent. */
module Optional {

  datatype Option<+T> = None | Some(value: T)

}

=== FILE: ordering.dfy ===
/** Comparators (Swift's `isOrderedBefore` closures) and the sorts the
    provider applies with them. Swift's `sort` promises a sorted permutation
    and nothing about stability; `SortBy` is one such sort (a stable
    insertion sort) and its contract claims only the sorted permutation. */
module Ordering {
  import Sequences

  /** `lt` is irreflexive, transitive, and its incomparability is transitive
      (stated as: "not before" is transitive) — what Swift asks of a sort
      predicate. */
  ghost predicate StrictWeakOrder<T(!new)>(lt: (T, T) -> bool)
  {
    && (forall a :: !lt(a, a))
    && (forall a, b, c :: lt(a, b) && lt(b, c) ==> lt(a, c))
    && (forall a, b, c :: !lt(a, b) && !lt(b, c) ==> !lt(a, c))
  }

  /** Neither is ordered before the other. */
  predicate Equivalent<T>(lt: (T, T) -> bool, a: T, b: T)
  {
    !lt(a, b) && !lt(b, a)
  }

  /** No later element is ordered before an earlier one. */
  ghost predicate Sorted<T>(lt: (T, T) -> bool, s: seq<T>)
  {
    forall i, j :: 0 <= i < j < |s| ==> !lt(s[j], s[i])
  }

  /** The first position whose element is not ordered before `x`. */
  function InsertPos<T>(lt: (T, T) -> bool, x: T, s: seq<T>): (k: nat)
    ensures k <= |s|
    ensures forall i :: 0 <= i < k ==> lt(s[i], x)
    ensures k < |s| ==> !lt(s[k], x)
  {
    if |s| == 0 || !lt(s[0], x) then 0 else 1 + InsertPos(lt, x, s[1..])
  }

  /** `x` placed in front of the first element it is not after. */
  function Insert<T>(lt: (T, T) -> bool, x: T, s: seq<T>): (r: seq<T>)
    ensures |r| == |s| + 1
    ensures multiset(r) == multiset(s) + multiset{x}
  {
    var k := InsertPos(lt, x, s);
    assert s == s[..k] + s[k..];
    s[..k] + [x] + s[k..]
  }

  lemma {:induction false} InsertSorted<T(!new)>(lt: (T, T) -> bool, x: T, s: seq<T>)
    ensures StrictWeakOrder(lt) && Sorted(lt, s) ==> Sorted(lt, Insert(lt, x, s))
  {
    if StrictWeakOrder(lt) && Sorted(lt, s) {
      var k := InsertPos(lt, x, s);
      var r := Insert(lt, x, s);
      forall i, j | 0 <= i < j < |r|
        ensures !lt(r[j], r[i])
      {
        if j < k {
          assert r[i] == s[i] && r[j] == s[j];
        } else if j == k {
          assert r[i] == s[i] && r[j] == x;
          assert lt(s[i], x);
        } else if i < k {
          assert r[i] == s[i] && r[j] == s[j - 1];
          assert lt(s[i], x) && !lt(s[k], x);
          assert !lt(s[j - 1], s[k]) || j - 1 == k;
        } else if i == k {
          assert r[i] == x && r[j] == s[j - 1];
          assert !lt(s[j - 1], s[k]) || j - 1 == k;
        } else {
          assert r[i] == s[i - 1] && r[j] == s[j - 1];
        }
      }
    }
  }

  /** Swift's `sort(_:)` / `sortInPlace(_:)`: a sorted permutation. */
  function SortBy<T(!new)>(lt: (T, T) -> bool, s: seq<T>): (r: seq<T>)
    ensures |r| == |s|
    ensures multiset(r) == multiset(s)
    ensures StrictWeakOrder(lt) ==> Sorted(lt, r)
  {
    if |s| == 0 then []
    else
      var rest := SortBy(lt, s[1..]);
      InsertSorted(lt, s[0], rest);
      assert s == [s[0]] + s[1..];
      Insert(lt, s[0], rest)
  }

  /** The comparators applied one after another as full re-sorts, as the
      provider does for every comparator after the first. */
  function SortChain<T(!new)>(cmps: seq<(T, T) -> bool>, s: seq<T>): (r: seq<T>)
    ensures |r| == |s|
    ensures multiset(r) == multiset(s)
    ensures |cmps| > 0 && StrictWeakOrder(cmps[|cmps| - 1]) ==> Sorted(cmps[|cmps| - 1], r)
    decreases |cmps|
  {
    if |cmps| == 0 then s
    else
      var r := SortChain(cmps[1..], SortBy(cmps[0], s));
      assert |cmps| > 1 ==> cmps[|cmps| - 1] == cmps[1..][|cmps[1..]| - 1];
      r
  }

  /** Dropping elements from a sorted sequence leaves it sorted. */
  lemma {:induction false} FilterSorted<T(!new)>(lt: (T, T) -> bool, s: seq<T>, keep: T -> bool)
    ensures Sorted(lt, s) ==> Sorted(lt, Sequences.Filter(s, keep))
  {
    if |s| > 0 && Sorted(lt, s) {
      var tail := Sequences.Filter(s[1..], keep);
      FilterSorted(lt, s[1..], keep);
      forall i | 0 <= i < |tail|
        ensures !lt(tail[i], s[0])
      {
        assert tail[i] in multiset(s[1..]);
        var j :| 0 <= j < |s[1..]| && s[1..][j] == tail[i];
        assert s[j + 1] == tail[i];
      }
      if keep(s[0]) {
        assert Sequences.Filter(s, keep) == [s[0]] + tail;
        ConsSorted(lt, s[0], tail);
      } else {
        assert Sequences.Filter(s, keep) == tail;
      }
    }
  }

  /** A sorted sequence stays sorted behind an element none of its
      elements is ordered before. */
  lemma ConsSorted<T>(lt: (T, T) -> bool, x: T, s: seq<T>)
    requires Sorted(lt, s)
    requires forall i :: 0 <= i < |s| ==> !lt(s[i], x)
    ensures Sorted(lt, [x] + s)
  {
    var r := [x] + s;
    forall i, j | 0 <= i < j < |r|
      ensures !lt(r[j], r[i])
    {
      assert r[j] == s[j - 1];
      if i > 0 {
        assert r[i] == s[i - 1];
      }
    }
  }
}

=== FILE: partition.dfy ===
/** The grouping `reload` performs, stated as a reference definition: the
    records are split by section key, sections in the order their keys are
    first seen, each holding its records in their original order. */
module Partition {
  import opened Optional
  import opened Sequences
  import opened SectionInfo

  /** The records of `xs` whose key is `k`, in order. */
  function Select<T>(xs: seq<T>, key: T -> string, k: string): (r: seq<T>)
    ensures |r| <= |xs|
    ensures forall i :: 0 <= i < |r| ==> key(r[i]) == k
  {
    if |xs| == 0 then []
    else
      assert xs == [xs[0]] + xs[1..];
      (if key(xs[0]) == k then [xs[0]] else []) + Select(xs[1..], key, k)
  }

  /** The keys of `xs` not in `seen`, each once, in order of first appearance. */
  function NewKeys<T>(xs: seq<T>, key: T -> string, seen: set<string>): (ks: seq<string>)
    decreases |xs|
  {
    if |xs| == 0 then []
    else if key(xs[0]) in seen then NewKeys(xs[1..], key, seen)
    else [key(xs[0])] + NewKeys(xs[1..], key, seen + {key(xs[0])})
  }

  /** The names of the sections, as a set. */
  function Names<T>(sections: seq<Section<T>>): set<string>
  {
    set i | 0 <= i < |sections| :: sections[i].name
  }

  /** The existing sections, each with its records from `xs` appended. */
  function Extend<T>(sections: seq<Section<T>>, xs: seq<T>, key: T -> string): (r: seq<Section<T>>)
    ensures |r| == |sections|
    ensures forall i :: 0 <= i < |r| ==>
      r[i] == sections[i].(items := sections[i].items + Select(xs, key, sections[i].name))
  {
    seq(|sections|, i requires 0 <= i < |sections| =>
      sections[i].(items := sections[i].items + Select(xs, key, sections[i].name)))
  }

  /** One new section per key, holding the records of `xs` with that key. */
  function Fresh<T>(ks: seq<string>, xs: seq<T>, key: T -> string): (r: seq<Section<T>>)
    ensures |r| == |ks|
    ensures forall i :: 0 <= i < |r| ==> r[i] == NewSection(ks[i]).(items := Select(xs, key, ks[i]))
  {
    seq(|ks|, i requires 0 <= i < |ks| => NewSection(ks[i]).(items := Select(xs, key, ks[i])))
  }

  /** `xs` grouped into the sections already present and, after them, new
      sections for the keys not yet present. */
  function Merge<T>(sections: seq<Section<T>>, xs: seq<T>, key: T -> string): seq<Section<T>>
  {
    Extend(sections, xs, key) + Fresh(NewKeys(xs, key, Names(sections)), xs, key)
  }

  /** `xs` grouped from scratch. */
  function Group<T>(xs: seq<T>, key: T -> string): seq<Section<T>>
  {
    Fresh(NewKeys(xs, key, {}), xs, key)
  }

  /** Filing one record: append it to the first section of its key, or open
      a new section for it at the end. */
  function Put<T>(sections: seq<Section<T>>, key: T -> string, x: T): seq<Section<T>>
  {
    match SectionNamed(sections, key(x))
    case Some(i) => sections[i := sections[i].(items := sections[i].items + [x])]
    case None => sections + [NewSection(key(x)).(items := [x])]
  }

  /** All the records of all the sections, counted with multiplicity. */
  function AllItems<T>(sections: seq<Section<T>>): multiset<T>
  {
    if |sections| == 0 then multiset{} else multiset(sections[0].items) + AllItems(sections[1..])
  }

  // ---------------------------------------------------------------------
  // Facts about the keys
  // ---------------------------------------------------------------------

  /** New keys are not among the keys already seen. */
  lemma {:induction false} NewKeysAreNew<T>(xs: seq<T>, key: T -> string, seen: set<string>)
    ensures forall j :: 0 <= j < |NewKeys(xs, key, seen)| ==> NewKeys(xs, key, seen)[j] !in seen
    decreases |xs|
  {
    if |xs| > 0 {
      var k := key(xs[0]);
      if k in seen {
        NewKeysAreNew(xs[1..], key, seen);
      } else {
        NewKeysAreNew(xs[1..], key, seen + {k});
      }
    }
  }

  /** No string occurs twice. */
  ghost predicate AllDistinct(ks: seq<string>)
  {
    forall i, j :: 0 <= i < j < |ks| ==> ks[i] != ks[j]
  }

  /** Some record of `xs` has key `k`. */
  ghost predicate KeyOccurs<T>(xs: seq<T>, key: T -> string, k: string)
  {
    exists i :: 0 <= i < |xs| && key(xs[i]) == k
  }

  /** New keys are pairwise distinct. */
  lemma {:induction false} NewKeysDistinct<T>(xs: seq<T>, key: T -> string, seen: set<string>)
    ensures AllDistinct(NewKeys(xs, key, seen))
    decreases |xs|
  {
    if |xs| > 0 {
      var k := key(xs[0]);
      if k in seen {
        assert NewKeys(xs, key, seen) == NewKeys(xs[1..], key, seen);
        NewKeysDistinct(xs[1..], key, seen);
      } else {
        var rest := NewKeys(xs[1..], key, seen + {k});
        NewKeysDistinct(xs[1..], key, seen + {k});
        NewKeysAreNew(xs[1..], key, seen + {k});
        assert NewKeys(xs, key, seen) == [k] + rest;
      }
    }
  }

  /** Each new key is the key of some record. */
  lemma {:induction false} NewKeysOccur<T>(xs: seq<T>, key: T -> string, seen: set<string>)
    ensures forall j :: 0 <= j < |NewKeys(xs, key, seen)| ==> KeyOccurs(xs, key, NewKeys(xs, key, seen)[j])
    decreases |xs|
  {
    if |xs| > 0 {
      var k := key(xs[0]);
      var ks := NewKeys(xs, key, seen);
      var seen' := if k in seen then seen else seen + {k};
      var rest := NewKeys(xs[1..], key, seen');
      NewKeysOccur(xs[1..], key, seen');
      assert ks == if k in seen then rest else [k] + rest;
      forall j | 0 <= j < |ks|
        ensures KeyOccurs(xs, key, ks[j])
      {
        if k !in seen && j == 0 {
          assert key(xs[0]) == ks[0];
        } else {
          var j' := if k in seen then j else j - 1;
          assert ks[j] == rest[j'];
          assert KeyOccurs(xs[1..], key, rest[j']);
          var i :| 0 <= i < |xs[1..]| && key(xs[1..][i]) == rest[j'];
          assert key(xs[i + 1]) == ks[j];
        }
      }
    }
  }

  /** Every record's key is either already seen or among the new keys. */
  lemma {:induction false} NewKeysCover<T>(xs: seq<T>, key: T -> string, seen: set<string>)
    ensures forall i :: 0 <= i < |xs| ==> key(xs[i]) in seen || key(xs[i]) in NewKeys(xs, key, seen)
    decreases |xs|
  {
    if |xs| > 0 {
      var k := key(xs[0]);
      var seen' := if k in seen then seen else seen + {k};
      NewKeysCover(xs[1..], key, seen');
      forall i | 0 < i < |xs|
        ensures key(xs[i]) in seen || key(xs[i]) in NewKeys(xs, key, seen)
      {
        assert xs[1..][i - 1] == xs[i];
      }
    }
  }

  /** A key some record carries selects at least one record. */
  lemma SelectOfPresentKey<T>(xs: seq<T>, key: T -> string, i: nat)
    requires i < |xs|
    ensures |Select(xs, key, key(xs[i]))| > 0
    decreases i
  {
    if i > 0 && key(xs[0]) != key(xs[i]) {
      SelectOfPresentKey(xs[1..], key, i - 1);
    }
  }

  // ---------------------------------------------------------------------
  // Group: the partition properties
  // ---------------------------------------------------------------------

  /** The records of the selections for a list of keys, added up. */
  function SelectedItems<T>(ks: seq<string>, xs: seq<T>, key: T -> string): multiset<T>
  {
    if |ks| == 0 then multiset{} else multiset(Select(xs, key, ks[0])) + SelectedItems(ks[1..], xs, key)
  }

  /** Taking one more record changes no selection for keys other than its own. */
  lemma {:induction false} SelectedItemsConsOther<T>(ks: seq<string>, x: T, xs: seq<T>, key: T -> string)
    requires key(x) !in ks
    ensures SelectedItems(ks, [x] + xs, key) == SelectedItems(ks, xs, key)
  {
    if |ks| > 0 {
      var ys := [x] + xs;
      assert ys[1..] == xs;
      SelectedItemsConsOther(ks[1..], x, xs, key);
      assert Select(ys, key, ks[0]) == Select(xs, key, ks[0]);
    }
  }

  /** Taking one more record adds it once when its key occurs once. */
  lemma {:induction false} SelectedItemsConsOwn<T>(ks: seq<string>, x: T, xs: seq<T>, key: T -> string)
    requires key(x) in ks
    requires AllDistinct(ks)
    ensures SelectedItems(ks, [x] + xs, key) == SelectedItems(ks, xs, key) + multiset{x}
  {
    var ys := [x] + xs;
    assert ys[1..] == xs;
    if ks[0] == key(x) {
      assert Select(ys, key, ks[0]) == [x] + Select(xs, key, ks[0]);
      assert key(x) !in ks[1..];
      SelectedItemsConsOther(ks[1..], x, xs, key);
    } else {
      assert Select(ys, key, ks[0]) == Select(xs, key, ks[0]);
      SelectedItemsConsOwn(ks[1..], x, xs, key);
    }
  }

  /** Distinct keys covering every record's key select every record exactly
      once. */
  lemma {:induction false} SelectedItemsAll<T>(ks: seq<string>, xs: seq<T>, key: T -> string)
    requires AllDistinct(ks)
    requires forall i :: 0 <= i < |xs| ==> key(xs[i]) in ks
    ensures SelectedItems(ks, xs, key) == multiset(xs)
    decreases |xs|
  {
    if |xs| == 0 {
      SelectedItemsEmpty(ks, key);
    } else {
      assert xs == [xs[0]] + xs[1..];
      SelectedItemsAll(ks, xs[1..], key);
      SelectedItemsConsOwn(ks, xs[0], xs[1..], key);
    }
  }

  lemma {:induction false} SelectedItemsEmpty<T>(ks: seq<string>, key: T -> string)
    ensures SelectedItems(ks, [], key) == multiset{}
  {
    if |ks| > 0 {
      SelectedItemsEmpty(ks[1..], key);
    }
  }

  lemma {:induction false} AllItemsFresh<T>(ks: seq<string>, xs: seq<T>, key: T -> string)
    ensures AllItems(Fresh(ks, xs, key)) == SelectedItems(ks, xs, key)
  {
    if |ks| > 0 {
      assert Fresh(ks, xs, key)[1..] == Fresh(ks[1..], xs, key);
      AllItemsFresh(ks[1..], xs, key);
    }
  }

  /** `Group`'s sections are named by the keys in order of first
      appearance, pairwise distinct, none empty, and each holds exactly the
      records with its key in their original order. */
  lemma GroupSections<T>(xs: seq<T>, key: T -> string)
    ensures var g := Group(xs, key);
      && |g| == |NewKeys(xs, key, {})|
      && (forall j :: 0 <= j < |g| ==> g[j].name == NewKeys(xs, key, {})[j])
      && DistinctNames(g)
      && NoneEmpty(g)
      && (forall j :: 0 <= j < |g| ==> g[j].items == Select(xs, key, g[j].name))
  {
    var ks := NewKeys(xs, key, {});
    var g := Group(xs, key);
    NewKeysDistinct(xs, key, {});
    NewKeysOccur(xs, key, {});
    forall j | 0 <= j < |g|
      ensures |g[j].items| > 0
    {
      assert KeyOccurs(xs, key, ks[j]);
      var i :| 0 <= i < |xs| && key(xs[i]) == ks[j];
      SelectOfPresentKey(xs, key, i);
    }
  }

  /** Together `Group`'s sections hold every record exactly once, and every
      record's key names one of them. */
  lemma GroupCovers<T>(xs: seq<T>, key: T -> string)
    ensures var g := Group(xs, key);
      && (forall i :: 0 <= i < |xs| ==> exists j :: 0 <= j < |g| && g[j].name == key(xs[i]))
      && AllItems(g) == multiset(xs)
  {
    var ks := NewKeys(xs, key, {});
    var g := Group(xs, key);
    NewKeysDistinct(xs, key, {});
    NewKeysCover(xs, key, {});
    forall i | 0 <= i < |xs|
      ensures exists j :: 0 <= j < |g| && g[j].name == key(xs[i])
    {
      assert key(xs[i]) in ks;
      var j :| 0 <= j < |ks| && ks[j] == key(xs[i]);
      assert g[j].name == key(xs[i]);
    }
    AllItemsFresh(ks, xs, key);
    SelectedItemsAll(ks, xs, key);
  }
}

=== FILE: provider_properties.dfy ===
/** What the provider's mutations keep and what their notifications mean:
    sections stay distinct and non-empty, records are neither lost nor
    invented, and replaying the notifications on the old row counts yields
    the new ones. */
module ProviderProperties {
  import opened Optional
  import opened Sequences
  import opened SectionInfo
  import opened DataProvider
  import opened ArrayDataProvider
  import opened Partition
  import ReloadProperties
  import Ordering
  import InsertionIndex

  /** The shape every mutation keeps: no two sections share a name and no
      section is empty. */
  ghost predicate Valid<T>(p: Provider<T>)
  {
    DistinctNames(p.sections) && NoneEmpty(p.sections)
  }

  /** Both change handlers are attached, so every change is announced. */
  predicate Observed<T>(p: Provider<T>)
  {
    p.sectionHandler && p.itemHandler
  }

  /** The row counts replays work on are what the data-source queries
      report: one entry per section, each that section's item count. */
  lemma ShapeReportsCounts<T>(p: Provider<T>)
    ensures |Shape(p.sections)| == NumberOfSections(p)
    ensures forall s :: 0 <= s < |p.sections| ==> Shape(p.sections)[s] == NumberOfItemsInSection(p, s)
  {
  }

  // ---------------------------------------------------------------------
  // Records held by the sections
  // ---------------------------------------------------------------------

  /** Replacing one section swaps its records for the new section's. */
  lemma {:induction false} AllItemsReplace<T>(sections: seq<Section<T>>, j: nat, s: Section<T>)
    requires j < |sections|
    ensures AllItems(sections[j := s]) + multiset(sections[j].items) == AllItems(sections) + multiset(s.items)
  {
    if j > 0 {
      AllItemsReplace(sections[1..], j - 1, s);
      assert sections[j := s][1..] == sections[1..][j - 1 := s];
      assert sections[1..][j - 1] == sections[j];
      calc {
        AllItems(sections[j := s]) + multiset(sections[j].items);
        multiset(sections[0].items) + (AllItems(sections[1..][j - 1 := s]) + multiset(sections[j].items));
        multiset(sections[0].items) + (AllItems(sections[1..]) + multiset(s.items));
        AllItems(sections) + multiset(s.items);
      }
    } else {
      assert sections[j := s][1..] == sections[1..];
    }
  }

  /** Removing one section removes exactly its records. */
  lemma {:induction false} AllItemsRemove<T>(sections: seq<Section<T>>, j: nat)
    requires j < |sections|
    ensures AllItems(RemoveAt(sections, j)) + multiset(sections[j].items) == AllItems(sections)
  {
    if j > 0 {
      AllItemsRemove(sections[1..], j - 1);
      assert RemoveAt(sections, j)[1..] == RemoveAt(sections[1..], j - 1);
    } else {
      assert RemoveAt(sections, j) == sections[1..];
    }
  }

  /** Removing one element removes exactly that element. */
  lemma RemoveAtMultiset<T>(xs: seq<T>, i: nat)
    requires i < |xs|
    ensures multiset(RemoveAt(xs, i)) + multiset{xs[i]} == multiset(xs)
  {
    assert xs == xs[..i] + [xs[i]] + xs[i + 1..];
  }

  // ---------------------------------------------------------------------
  // Section placement
  // ---------------------------------------------------------------------

  /** The number of records in a run of sections. */
  function Rows<T>(sections: seq<Section<T>>): (n: nat)
    ensures |sections| > 0 ==> n >= sections[0].NumberOfItems()
  {
    if |sections| == 0 then 0 else sections[0].NumberOfItems() + Rows(sections[1..])
  }

  /** The running record count once section `j` has been counted. */
  function RunningCount<T>(sections: seq<Section<T>>, j: nat): (n: nat)
    requires j < |sections|
    ensures n >= sections[j].NumberOfItems()
  {
    assert sections[..j + 1] == sections[..j] + [sections[j]];
    RowsAppend(sections[..j], sections[j]);
    Rows(sections[..j + 1])
  }

  /** Counting one more section adds its records. */
  lemma {:induction false} RowsAppend<T>(sections: seq<Section<T>>, s: Section<T>)
    ensures Rows(sections + [s]) == Rows(sections) + s.NumberOfItems()
  {
    if |sections| > 0 {
      assert (sections + [s])[1..] == sections[1..] + [s];
      RowsAppend(sections[1..], s);
    }
  }

  /** Under a strict weak order, and with no master record equivalent to
      `x`, the rank a new section is placed by is the number of master
      records ordered before `x`. */
  lemma RankCountsBefore<T(!new)>(p: Provider<T>, x: T)
    requires |p.itemSort| > 0 && p.items.Some? && Ordering.StrictWeakOrder(p.itemSort[0])
    requires forall k :: 0 <= k < |p.items.value| ==> !Ordering.Equivalent(p.itemSort[0], p.items.value[k], x)
    ensures Rank(p, x) == Some(InsertionIndex.CountBefore(p.items.value, x, p.itemSort[0]))
  {
    var lt, xs := p.itemSort[0], p.items.value;
    var sorted := Ordering.SortBy(lt, xs);
    forall k | 0 <= k < |sorted|
      ensures !Ordering.Equivalent(lt, sorted[k], x)
    {
      assert sorted[k] in multiset(xs);
    }
    InsertionIndex.InsertionIndexCountsBefore(sorted, x, lt);
    InsertionIndex.CountBeforePermutation(sorted, xs, x, lt);
  }

  /** The placement loop stops at the first section whose running record
      count (started at `count`) exceeds the index; every section before it
      has a running count at or below the index. */
  lemma {:induction false} PlaceSectionStops<T>(sections: seq<Section<T>>, index: Option<int>, count: int)
    ensures var k := PlaceSection(sections, index, count);
      && (forall j :: 0 <= j < k ==> !OptionalLess(index, count + RunningCount(sections, j)))
      && (k < |sections| ==> OptionalLess(index, count + RunningCount(sections, k)))
  {
    if |sections| > 0 {
      var total := count + sections[0].NumberOfItems();
      RunningCountSteps(sections);
      if !OptionalLess(index, total) {
        PlaceSectionStops(sections[1..], index, total);
      }
    }
  }

  /** The running count of the first section is its own size, and each
      later one adds the first section's size to the running count of the
      rest. */
  lemma RunningCountSteps<T>(sections: seq<Section<T>>)
    requires |sections| > 0
    ensures RunningCount(sections, 0) == sections[0].NumberOfItems()
    ensures forall j :: 0 < j < |sections| ==>
      RunningCount(sections, j) == sections[0].NumberOfItems() + RunningCount(sections[1..], j - 1)
  {
    assert sections[..1][1..] == [] && sections[..1][0] == sections[0];
    assert Rows(sections[..1]) == sections[0].NumberOfItems() + Rows<T>([]);
    forall j | 0 < j < |sections|
      ensures RunningCount(sections, j) == sections[0].NumberOfItems() + RunningCount(sections[1..], j - 1)
    {
      assert sections[..j + 1][1..] == sections[1..][..j - 1 + 1];
    }
  }

  // ---------------------------------------------------------------------
  // Filing a record
  // ---------------------------------------------------------------------

  /** Finding or creating a record's section never duplicates a name. */
  lemma PlacementKeepsDistinct<T(!new)>(p: Provider<T>, x: T)
    requires DistinctNames(p.sections)
    ensures DistinctNames(SectionInfoForItem(p, x).next.sections)
  {
    var r := SectionInfoForItem(p, x);
    var name := p.sectionKey(x);
    if SectionNamed(p.sections, name).None? {
      var s := r.next.sections;
      forall i, j | 0 <= i < j < |s|
        ensures s[i].name != s[j].name
      {
        if i == r.index {
          assert s[j] == p.sections[j - 1];
        } else if j == r.index {
          assert s[i] == p.sections[i];
        } else {
          var i' := if i < r.index then i else i - 1;
          var j' := if j < r.index then j else j - 1;
          assert s[i] == p.sections[i'] && s[j] == p.sections[j'];
        }
      }
    }
  }

  /** Filing a record never duplicates a name. */
  lemma FileItemKeepsDistinct<T(!new)>(p: Provider<T>, x: T)
    requires DistinctNames(p.sections)
    ensures DistinctNames(FileItem(p, x).next.sections)
  {
    var placed := SectionInfoForItem(p, x);
    var r := FileItem(p, x);
    PlacementKeepsDistinct(p, x);
    forall i, j | 0 <= i < j < |r.next.sections|
      ensures r.next.sections[i].name != r.next.sections[j].name
    {
      assert r.next.sections[i].name == placed.next.sections[i].name;
      assert r.next.sections[j].name == placed.next.sections[j].name;
    }
  }

  /** Filing a record keeps the provider valid. */
  lemma FileItemKeepsValid<T(!new)>(p: Provider<T>, x: T)
    requires Valid(p)
    ensures Valid(FileItem(p, x).next)
  {
    var placed := SectionInfoForItem(p, x);
    var r := FileItem(p, x);
    FileItemKeepsDistinct(p, x);
    forall i | 0 <= i < |r.next.sections|
      ensures |r.next.sections[i].items| > 0
    {
      if i != r.index && SectionNamed(p.sections, p.sectionKey(x)).None? {
        if i < placed.index {
          assert placed.next.sections[i] == p.sections[i];
        } else {
          assert placed.next.sections[i] == p.sections[i - 1];
        }
      }
    }
  }

  /** An empty section adds no records. */
  lemma {:induction false} AllItemsInsertEmpty<T>(sections: seq<Section<T>>, k: nat, s: Section<T>)
    requires k <= |sections| && |s.items| == 0
    ensures AllItems(InsertAt(sections, k, s)) == AllItems(sections)
  {
    if k > 0 {
      AllItemsInsertEmpty(sections[1..], k - 1, s);
      assert InsertAt(sections, k, s)[1..] == InsertAt(sections[1..], k - 1, s);
    } else {
      assert InsertAt(sections, k, s)[1..] == sections;
    }
  }

  /** Filing a record adds exactly that record to the sections. */
  lemma FileItemAddsRecord<T(!new)>(p: Provider<T>, x: T)
    ensures AllItems(FileItem(p, x).next.sections) == AllItems(p.sections) + multiset{x}
  {
    var placed := SectionInfoForItem(p, x);
    var r := FileItem(p, x);
    var before := placed.next.sections[r.index];
    var grown := before.(items := before.items + [x]);
    assert r.next.sections == placed.next.sections[r.index := grown];
    if SectionNamed(p.sections, p.sectionKey(x)).None? {
      AllItemsInsertEmpty(p.sections, placed.index, NewSection(p.sectionKey(x)));
    }
    assert AllItems(placed.next.sections) == AllItems(p.sections);
    AllItemsReplace(placed.next.sections, r.index, grown);
    assert multiset(grown.items) == multiset(before.items) + multiset{x};
    MultisetGrow(AllItems(r.next.sections), AllItems(p.sections), multiset(before.items), x);
  }

  /** A common part cancels from both sides of a multiset equation. */
  lemma MultisetGrow<T>(a: multiset<T>, b: multiset<T>, m: multiset<T>, u: T)
    requires a + m == b + (m + multiset{u})
    ensures a == b + multiset{u}
  {
    forall y ensures a[y] == (b + multiset{u})[y] {
      assert (a + m)[y] == (b + (m + multiset{u}))[y];
    }
  }

  /** Filing a record puts it at the end of the section named by its key: an
      existing section grows by it, otherwise a section holding only it is
      inserted at the placement index. */
  lemma FileItemAtEnd<T(!new)>(p: Provider<T>, x: T)
    ensures var r := FileItem(p, x);
      && (SectionNamed(p.sections, p.sectionKey(x)).Some? ==>
            r.next.sections == p.sections[r.index := p.sections[r.index].(items := p.sections[r.index].items + [x])])
      && (SectionNamed(p.sections, p.sectionKey(x)).None? ==>
            r.next.sections == InsertAt(p.sections, r.index, NewSection(p.sectionKey(x)).(items := [x])))
  {
    var placed := SectionInfoForItem(p, x);
    var r := FileItem(p, x);
    var k := r.index;
    if SectionNamed(p.sections, p.sectionKey(x)).None? {
      var created := NewSection(p.sectionKey(x));
      var s := r.next.sections;
      var t := InsertAt(p.sections, k, created.(items := [x]));
      assert placed.next.sections[k] == created;
      assert s[k] == created.(items := [x]);
      forall i | 0 <= i < |s|
        ensures s[i] == t[i]
      {
        if i != k {
          assert s[i] == placed.next.sections[i];
        }
      }
    }
  }

  // ---------------------------------------------------------------------
  // add
  // ---------------------------------------------------------------------

  /** When the record type's `==` finds the record itself, `add` never falls
      back to reloading: the record is filed, appended to the master list, and
      announced (after any section insert) at its section and at the first
      record of that section equal to it. */
  lemma AddAnnounces<T(!new)>(p: Provider<T>, x: T)
    requires DistinctNames(p.sections) && p.same(x, x)
    ensures var f := FileItem(p, x);
      var filed := f.next.sections[f.index];
      var r := Add(p, x);
      && r.next == f.next.(items := AppendToMaster(p.items, x))
      && IndexOf(filed.items, x, p.same).Some?
      && r.events == SectionInfoForItem(p, x).events
           + Emit(p.itemHandler, ItemChanged(Insert, None, Some(IndexPath(f.index, IndexOf(filed.items, x, p.same).value))))
  {
    var f := FileItem(p, x);
    FileItemKeepsDistinct(p, x);
    AnnounceFinds(f.next.(items := AppendToMaster(p.items, x)), f.index, x);
  }

  /** With distinct section names, a self-equal record at the end of
      section `k` is found by both lookups at the end of `add`, so it is
      announced there instead of triggering a reload. */
  lemma AnnounceFinds<T(!new)>(q: Provider<T>, k: nat, x: T)
    requires k < |q.sections| && DistinctNames(q.sections) && q.same(x, x)
    requires |q.sections[k].items| > 0 && q.sections[k].items[|q.sections[k].items| - 1] == x
    ensures var ii := IndexOf(q.sections[k].items, x, q.same);
      && ii.Some?
      && AnnounceInsert(q, k, x) == Transition(q, Emit(q.itemHandler, ItemChanged(Insert, None, Some(IndexPath(k, ii.value)))))
  {
    var section := q.sections[k];
    assert SameSection(q.sections[k], section);
    assert IndexOf(q.sections, section, SameSection) == Some(k);
  }

  /** `add` puts the record at the end of the section named by its key
      (a new section when there was none) and adds exactly that record. */
  lemma AddFilesRecord<T(!new)>(p: Provider<T>, x: T)
    requires DistinctNames(p.sections) && p.same(x, x)
    ensures var k := FileItem(p, x).index;
      var s := Add(p, x).next.sections;
      && AllItems(s) == AllItems(p.sections) + multiset{x}
      && k < |s| && s[k].name == p.sectionKey(x)
      && (SectionNamed(p.sections, p.sectionKey(x)).Some? ==>
            s == p.sections[k := p.sections[k].(items := p.sections[k].items + [x])])
      && (SectionNamed(p.sections, p.sectionKey(x)).None? ==>
            s == InsertAt(p.sections, k, NewSection(p.sectionKey(x)).(items := [x])))
  {
    AddAnnounces(p, x);
    FileItemAddsRecord(p, x);
    FileItemAtEnd(p, x);
  }

  /** `add` keeps the provider valid, whether or not it falls back to a
      reload. */
  lemma AddKeepsValid<T(!new)>(p: Provider<T>, x: T)
    requires Valid(p)
    ensures Valid(Add(p, x).next)
  {
    var f := FileItem(p, x);
    var q := f.next.(items := AppendToMaster(p.items, x));
    FileItemKeepsValid(p, x);
    ReloadProperties.ReloadKeepsShape(q);
  }

  /** Replayed on the old row counts, the notifications of an observed `add`
      give the new row counts, provided the record's section already exists
      or a comparator is set (see the off-by-one finding for the remaining
      case). */
  lemma AddReplays<T(!new)>(p: Provider<T>, x: T, current: seq<nat>)
    requires DistinctNames(p.sections) && p.same(x, x) && Observed(p)
    requires SectionNamed(p.sections, p.sectionKey(x)).Some? || |p.itemSort| > 0
    ensures Replay(Shape(p.sections), Add(p, x).events, current) == Some(Shape(Add(p, x).next.sections))
  {
    AddAnnounces(p, x);
    if SectionNamed(p.sections, p.sectionKey(x)).Some? {
      AddReplaysExisting(p, x, current);
    } else {
      AddReplaysCreated(p, x, current);
    }
  }

  /** `AddReplays` when the record's section exists: one item insert. */
  lemma AddReplaysExisting<T(!new)>(p: Provider<T>, x: T, current: seq<nat>)
    requires DistinctNames(p.sections) && p.same(x, x) && Observed(p)
    requires SectionNamed(p.sections, p.sectionKey(x)).Some?
    ensures var f := FileItem(p, x);
      var ii := IndexOf(f.next.sections[f.index].items, x, p.same);
      && ii.Some?
      && Replay(Shape(p.sections), [ItemChanged(Insert, None, Some(IndexPath(f.index, ii.value)))], current)
         == Some(Shape(f.next.sections))
  {
    var f := FileItem(p, x);
    var k := f.index;
    var filed := f.next.sections[k];
    assert filed.items[|filed.items| - 1] == x;
    var ii := IndexOf(filed.items, x, p.same).value;
    FileItemAtEnd(p, x);
    ShapeGrow(p.sections, k, x);
    ReplayItemInsert(Shape(p.sections), k, ii, current);
  }

  /** `AddReplays` for a new section placed by the comparator: a section
      insert, then an item insert at its first row. */
  lemma AddReplaysCreated<T(!new)>(p: Provider<T>, x: T, current: seq<nat>)
    requires p.same(x, x) && Observed(p)
    requires SectionNamed(p.sections, p.sectionKey(x)).None? && |p.itemSort| > 0
    ensures var f := FileItem(p, x);
      && SectionInfoForItem(p, x).events == [SectionChanged(Insert, f.index)]
      && IndexOf(f.next.sections[f.index].items, x, p.same) == Some(0)
      && Replay(Shape(p.sections), [SectionChanged(Insert, f.index), ItemChanged(Insert, None, Some(IndexPath(f.index, 0)))], current)
         == Some(Shape(f.next.sections))
  {
    var f := FileItem(p, x);
    var k := f.index;
    FileItemAtEnd(p, x);
    assert f.next.sections[k].items == [x];
    ShapeInsert(p.sections, k, NewSection(p.sectionKey(x)).(items := [x]));
    ReplaySectionThenItem(Shape(p.sections), k, current);
  }

  /** A record appended to section `k` adds one row there. */
  lemma ShapeGrow<T>(sections: seq<Section<T>>, k: nat, x: T)
    requires k < |sections|
    ensures Shape(sections[k := sections[k].(items := sections[k].items + [x])])
      == Shape(sections)[k := Shape(sections)[k] + 1]
  {
  }

  /** A section inserted at `k` adds its row count there. */
  lemma ShapeInsert<T>(sections: seq<Section<T>>, k: nat, s: Section<T>)
    requires k <= |sections|
    ensures Shape(InsertAt(sections, k, s)) == Shape(sections)[..k] + [s.NumberOfItems()] + Shape(sections)[k..]
  {
  }

  /** An item insert at an insertable location adds one row there. */
  lemma ReplayItemInsert(rows: seq<nat>, k: nat, ii: int, current: seq<nat>)
    requires k < |rows| && 0 <= ii <= rows[k]
    ensures Replay(rows, [ItemChanged(Insert, None, Some(IndexPath(k, ii)))], current) == Some(rows[k := rows[k] + 1])
  {
    var e := ItemChanged(Insert, None, Some(IndexPath(k, ii)));
    assert ApplyEvent(rows, e, current) == Some(rows[k := rows[k] + 1]);
    assert [e][1..] == [];
  }

  /** A section insert at `k` followed by an item insert at its first row
      adds a section holding one row. */
  lemma ReplaySectionThenItem(rows: seq<nat>, k: nat, current: seq<nat>)
    requires k <= |rows|
    ensures Replay(rows, [SectionChanged(Insert, k), ItemChanged(Insert, None, Some(IndexPath(k, 0)))], current)
      == Some(rows[..k] + [1] + rows[k..])
  {
    var grown := rows[..k] + [0] + rows[k..];
    var e := ItemChanged(Insert, None, Some(IndexPath(k, 0)));
    var events := [SectionChanged(Insert, k), e];
    assert ApplyEvent(rows, SectionChanged(Insert, k), current) == Some(grown);
    assert events[1..] == [e];
    assert grown[k := 1] == rows[..k] + [1] + rows[k..];
    ReplayItemInsert(grown, k, 0, current);
  }

  // ---------------------------------------------------------------------
  // delete
  // ---------------------------------------------------------------------

  /** `delete` changes nothing, and announces nothing, when the master list
      is absent or holds no record equal to `x`, or no section does. */
  lemma DeleteNothing<T>(p: Provider<T>, x: T)
    requires || p.items.None?
             || (forall k :: 0 <= k < |p.items.value| ==> !p.same(p.items.value[k], x))
             || (forall ip :: ItemAtIndexPath(p, ip).Some? ==> !p.same(ItemAtIndexPath(p, ip).value, x))
    ensures ArrayDataProvider.Delete(p, x) == Transition(p, [])
  {
  }

  /** The state `delete` leaves when it finds `x` in both places: the
      master list without its first equal record, and either the sections
      without the emptied section or that section without the record. */
  lemma DeleteFound<T>(p: Provider<T>, x: T)
    requires p.items.Some? && IndexOf(p.items.value, x, p.same).Some? && IndexPathForItem(p, x).Some?
    ensures var r := ArrayDataProvider.Delete(p, x);
      var mi := IndexOf(p.items.value, x, p.same).value;
      var ip := IndexPathForItem(p, x).value;
      var section := p.sections[ip.section];
      && r.next.items == Some(RemoveAt(p.items.value, mi))
      && (|section.items| == 1 ==>
            && r.next.sections == RemoveAt(p.sections, ip.section)
            && r.events == Emit(p.sectionHandler, SectionChanged(ChangeType.Delete, ip.section)))
      && (|section.items| > 1 ==>
            && r.next.sections == p.sections[ip.section := section.(items := RemoveAt(section.items, ip.item))]
            && r.events == Emit(p.itemHandler, ItemChanged(ChangeType.Delete, Some(ip), None)))
  {
  }

  /** When both the master list and a section hold a record equal to `x`,
      `delete` removes exactly one record from each: the first equal one in
      the master list, and the first equal one section by section. A section
      left empty disappears and is announced as a section delete; otherwise
      the item delete names the old location. */
  lemma DeleteRemovesOne<T>(p: Provider<T>, x: T)
    requires p.items.Some? && IndexOf(p.items.value, x, p.same).Some? && IndexPathForItem(p, x).Some?
    ensures var r := ArrayDataProvider.Delete(p, x);
      var mi := IndexOf(p.items.value, x, p.same).value;
      var ip := IndexPathForItem(p, x).value;
      && r.next.items.Some?
      && multiset(r.next.items.value) + multiset{p.items.value[mi]} == multiset(p.items.value)
      && AllItems(r.next.sections) + multiset{p.sections[ip.section].items[ip.item]} == AllItems(p.sections)
  {
    var mi := IndexOf(p.items.value, x, p.same).value;
    DeleteFound(p, x);
    RemoveAtMultiset(p.items.value, mi);
    DeleteSectionRecord(p.sections, IndexPathForItem(p, x).value);
  }

  /** The sections `delete` leaves hold one record fewer: the one removed. */
  lemma DeleteSectionRecord<T>(sections: seq<Section<T>>, ip: IndexPath)
    requires 0 <= ip.section < |sections| && 0 <= ip.item < |sections[ip.section].items|
    ensures var section := sections[ip.section];
      var after := if |section.items| == 1 then RemoveAt(sections, ip.section)
        else sections[ip.section := section.(items := RemoveAt(section.items, ip.item))];
      AllItems(after) + multiset{section.items[ip.item]} == AllItems(sections)
  {
    var section := sections[ip.section];
    var remaining := RemoveAt(section.items, ip.item);
    if |section.items| == 1 {
      AllItemsRemove(sections, ip.section);
      assert section.items == [section.items[ip.item]];
    } else {
      RemoveAtMultiset(section.items, ip.item);
      AllItemsReplace(sections, ip.section, section.(items := remaining));
      MultisetCancel(AllItems(sections[ip.section := section.(items := remaining)]), AllItems(sections),
        multiset(remaining), section.items[ip.item]);
    }
  }

  /** A common part cancels from both sides of a multiset equation. */
  lemma MultisetCancel<T>(a: multiset<T>, b: multiset<T>, m: multiset<T>, u: T)
    requires a + (m + multiset{u}) == b + m
    ensures a + multiset{u} == b
  {
    forall y ensures (a + multiset{u})[y] == b[y] {
      assert (a + (m + multiset{u}))[y] == (b + m)[y];
    }
  }

  /** `delete` keeps the provider valid. */
  lemma DeleteKeepsValid<T>(p: Provider<T>, x: T)
    requires Valid(p)
    ensures Valid(ArrayDataProvider.Delete(p, x).next)
  {
    var r := ArrayDataProvider.Delete(p, x);
    if r.next.sections != p.sections {
      DeleteFound(p, x);
      var ip := IndexPathForItem(p, x).value;
      if |p.sections[ip.section].items| == 1 {
        RemoveSectionKeepsValid(p.sections, ip.section);
      } else {
        ShrinkSectionKeepsValid(p.sections, ip);
      }
    }
  }

  /** Removing a section keeps names distinct and sections non-empty. */
  lemma RemoveSectionKeepsValid<T>(sections: seq<Section<T>>, k: nat)
    requires k < |sections| && DistinctNames(sections) && NoneEmpty(sections)
    ensures DistinctNames(RemoveAt(sections, k)) && NoneEmpty(RemoveAt(sections, k))
  {
    var s := RemoveAt(sections, k);
    forall i, j | 0 <= i < j < |s|
      ensures s[i].name != s[j].name
    {
      var i' := if i < k then i else i + 1;
      var j' := if j < k then j else j + 1;
      assert s[i] == sections[i'] && s[j] == sections[j'];
    }
    forall i | 0 <= i < |s|
      ensures |s[i].items| > 0
    {
      assert s[i] == sections[if i < k then i else i + 1];
    }
  }

  /** Removing one record from a section that holds more keeps names
      distinct and sections non-empty. */
  lemma ShrinkSectionKeepsValid<T>(sections: seq<Section<T>>, ip: IndexPath)
    requires 0 <= ip.section < |sections| && 0 <= ip.item < |sections[ip.section].items|
    requires |sections[ip.section].items| > 1
    requires DistinctNames(sections) && NoneEmpty(sections)
    ensures var section := sections[ip.section];
      var s := sections[ip.section := section.(items := RemoveAt(section.items, ip.item))];
      DistinctNames(s) && NoneEmpty(s)
  {
    var section := sections[ip.section];
    var s := sections[ip.section := section.(items := RemoveAt(section.items, ip.item))];
    forall i, j | 0 <= i < j < |s|
      ensures s[i].name != s[j].name
    {
      assert s[i].name == sections[i].name && s[j].name == sections[j].name;
    }
  }

  /** Replayed on the old row counts, the notifications of an observed
      `delete` give the new row counts. */
  lemma DeleteReplays<T>(p: Provider<T>, x: T, current: seq<nat>)
    requires Observed(p)
    ensures Replay(Shape(p.sections), ArrayDataProvider.Delete(p, x).events, current) == Some(Shape(ArrayDataProvider.Delete(p, x).next.sections))
  {
    var r := ArrayDataProvider.Delete(p, x);
    if r.events != [] {
      DeleteFound(p, x);
      var ip := IndexPathForItem(p, x).value;
      if |p.sections[ip.section].items| == 1 {
        ReplaySectionRemoved(p.sections, ip.section, current);
      } else {
        ReplayItemRemoved(p.sections, ip, current);
      }
    }
  }

  /** A section delete replays to the row counts without that section. */
  lemma ReplaySectionRemoved<T>(sections: seq<Section<T>>, k: nat, current: seq<nat>)
    requires k < |sections|
    ensures Replay(Shape(sections), [SectionChanged(ChangeType.Delete, k)], current) == Some(Shape(RemoveAt(sections, k)))
  {
    var rows := Shape(sections);
    assert Shape(RemoveAt(sections, k)) == rows[..k] + rows[k + 1..];
    assert [SectionChanged(ChangeType.Delete, k)][1..] == [];
  }

  /** An item delete replays to the row counts with that section one
      shorter. */
  lemma ReplayItemRemoved<T>(sections: seq<Section<T>>, ip: IndexPath, current: seq<nat>)
    requires 0 <= ip.section < |sections| && 0 <= ip.item < |sections[ip.section].items|
    ensures var section := sections[ip.section];
      Replay(Shape(sections), [ItemChanged(ChangeType.Delete, Some(ip), None)], current)
        == Some(Shape(sections[ip.section := section.(items := RemoveAt(section.items, ip.item))]))
  {
    var rows := Shape(sections);
    var section := sections[ip.section];
    assert PresentAt(rows, ip);
    assert Shape(sections[ip.section := section.(items := RemoveAt(section.items, ip.item))]) == rows[ip.section := rows[ip.section] - 1];
    assert [ItemChanged(ChangeType.Delete, Some(ip), None)][1..] == [];
  }

  /** `delete(atIndexPath:)` deletes the first record equal to the one read
      at `ip`, which may sit at an earlier location than `ip` itself. */
  lemma DeleteAtRemovesFirstEqual<T>(p: Provider<T>, ip: IndexPath)
    requires ItemAtIndexPath(p, ip).Some?
    requires p.same(ItemAtIndexPath(p, ip).value, ItemAtIndexPath(p, ip).value)
    ensures var y := ItemAtIndexPath(p, ip).value;
      var first := IndexPathForItem(p, y);
      && first.Some?
      && (first.value.section < ip.section || (first.value.section == ip.section && first.value.item <= ip.item))
      && (p.items.Some? && IndexOf(p.items.value, y, p.same).Some? ==>
            AllItems(DeleteAt(p, ip).next.sections) + multiset{ItemAtIndexPath(p, first.value).value} == AllItems(p.sections))
      && (p.items.None? || IndexOf(p.items.value, y, p.same).None? ==> DeleteAt(p, ip) == Transition(p, []))
  {
    var y := ItemAtIndexPath(p, ip).value;
    assert p.same(ItemAtIndexPath(p, ip).value, y);
    assert p.same(p.sections[ip.section].items[ip.item], y);
    if p.items.Some? && IndexOf(p.items.value, y, p.same).Some? {
      DeleteRemovesOne(p, y);
    }
  }

  // ---------------------------------------------------------------------
  // updateItem
  // ---------------------------------------------------------------------

  /** `updateItem` keeps the row counts, and its notification (if any)
      replays to the same counts. */
  lemma UpdateReplays<T>(p: Provider<T>, ip: IndexPath, x: T, current: seq<nat>)
    requires ItemAtIndexPath(p, ip).Some?
    ensures Shape(UpdateItem(p, ip, x).next.sections) == Shape(p.sections)
    ensures Replay(Shape(p.sections), UpdateItem(p, ip, x).events, current) == Some(Shape(p.sections))
  {
    var r := UpdateItem(p, ip, x);
    assert PresentAt(Shape(p.sections), ip);
    if r.events != [] {
      assert r.events[1..] == [];
    }
  }

  /** `updateItem` keeps the provider valid. */
  lemma UpdateKeepsValid<T>(p: Provider<T>, ip: IndexPath, x: T)
    requires ItemAtIndexPath(p, ip).Some? && Valid(p)
    ensures Valid(UpdateItem(p, ip, x).next)
  {
  }

  /** `updateItem` swaps one record for the new one. */
  lemma UpdateSwapsRecord<T>(p: Provider<T>, ip: IndexPath, x: T)
    requires ItemAtIndexPath(p, ip).Some?
    ensures AllItems(UpdateItem(p, ip, x).next.sections) + multiset{ItemAtIndexPath(p, ip).value}
      == AllItems(p.sections) + multiset{x}
  {
    var section := p.sections[ip.section];
    var updated := UpdateItem(p, ip, x).next.sections[ip.section];
    assert UpdateItem(p, ip, x).next.sections == p.sections[ip.section := updated];
    assert updated.items == section.items[ip.item := x];
    ReplaceMultiset(section.items, ip.item, x);
    AllItemsReplace(p.sections, ip.section, updated);
    MultisetSwap(AllItems(p.sections[ip.section := updated]), AllItems(p.sections),
      multiset(section.items), multiset(updated.items), section.items[ip.item], x);
  }

  /** Overwriting one element swaps it for the new one. */
  lemma ReplaceMultiset<T>(xs: seq<T>, i: nat, x: T)
    requires i < |xs|
    ensures multiset(xs[i := x]) + multiset{xs[i]} == multiset(xs) + multiset{x}
  {
    assert xs == xs[..i] + [xs[i]] + xs[i + 1..];
    assert xs[i := x] == xs[..i] + [x] + xs[i + 1..];
  }

  /** Swapping one element on each side of a multiset equation. */
  lemma MultisetSwap<T>(a: multiset<T>, b: multiset<T>, m: multiset<T>, n: multiset<T>, u: T, v: T)
    requires a + m == b + n
    requires n + multiset{u} == m + multiset{v}
    ensures a + multiset{u} == b + multiset{v}
  {
    forall y ensures (a + multiset{u})[y] == (b + multiset{v})[y] {
      assert (a + m)[y] == (b + n)[y];
      assert (n + multiset{u})[y] == (m + multiset{v})[y];
    }
  }
}

=== FILE: reload_properties.dfy ===
/** What `reload` computes: its filing loop is the `Merge` of the prepared
    records into the sections already present, so started from no sections
    it yields the partition `Group`, and from valid sections valid ones. */
module ReloadProperties {
  import opened Optional
  import opened Sequences
  import Ordering
  import opened SectionInfo
  import opened DataProvider
  import opened Partition
  import opened ArrayDataProvider

  /** Selecting from a sequence with one more record in front. */
  lemma SelectCons<T>(x: T, rest: seq<T>, key: T -> string, n: string)
    ensures Select([x] + rest, key, n) == if key(x) == n then [x] + Select(rest, key, n) else Select(rest, key, n)
  {
    assert ([x] + rest)[0] == x && ([x] + rest)[1..] == rest;
  }

  /** With the section handler detached, filing a record is `Put` and sends
      nothing. */
  lemma FileItemPuts<T(!new)>(p: Provider<T>, x: T)
    requires !p.sectionHandler
    ensures FileItem(p, x).next.sections == Put(p.sections, p.sectionKey, x)
    ensures FileItem(p, x).events == []
  {
    var r := FileItem(p, x);
    var k := p.sectionKey(x);
    match SectionNamed(p.sections, k)
    case Some(i) =>
      assert r.next.sections == p.sections[i := p.sections[i].(items := p.sections[i].items + [x])];
    case None =>
      var expected := p.sections + [NewSection(k).(items := [x])];
      assert r.index == |p.sections|;
      forall j | 0 <= j < |expected|
        ensures r.next.sections[j] == expected[j]
      {
        if j == |p.sections| {
          assert r.next.sections[j].items == [x];
        }
      }
      assert r.next.sections == expected;
  }

  /** `Put` keeps names distinct. */
  lemma PutKeepsDistinct<T>(sections: seq<Section<T>>, key: T -> string, x: T)
    requires DistinctNames(sections)
    ensures DistinctNames(Put(sections, key, x))
  {
  }

  /** Sections whose names differ from the record's key select nothing more
      when the record is put in front. */
  lemma ExtendOther<T>(sections: seq<Section<T>>, x: T, rest: seq<T>, key: T -> string)
    requires forall j :: 0 <= j < |sections| ==> sections[j].name != key(x)
    ensures Extend(sections, [x] + rest, key) == Extend(sections, rest, key)
  {
    forall j | 0 <= j < |sections|
      ensures Extend(sections, [x] + rest, key)[j] == Extend(sections, rest, key)[j]
    {
      SelectCons(x, rest, key, sections[j].name);
    }
  }

  /** Likewise for new sections named by keys other than the record's. */
  lemma FreshOther<T>(ks: seq<string>, x: T, rest: seq<T>, key: T -> string)
    requires forall j :: 0 <= j < |ks| ==> ks[j] != key(x)
    ensures Fresh(ks, [x] + rest, key) == Fresh(ks, rest, key)
  {
    forall j | 0 <= j < |ks|
      ensures Fresh(ks, [x] + rest, key)[j] == Fresh(ks, rest, key)[j]
    {
      SelectCons(x, rest, key, ks[j]);
    }
  }

  lemma NamesPutExisting<T>(sections: seq<Section<T>>, key: T -> string, x: T)
    requires SectionNamed(sections, key(x)).Some?
    ensures Names(Put(sections, key, x)) == Names(sections)
  {
    var put := Put(sections, key, x);
    forall n | n in Names(sections)
      ensures n in Names(put)
    {
      var j :| 0 <= j < |sections| && sections[j].name == n;
      assert put[j].name == n;
    }
  }

  lemma NamesAppend<T>(sections: seq<Section<T>>, s: Section<T>)
    ensures Names(sections + [s]) == Names(sections) + {s.name}
  {
    var all := sections + [s];
    forall n | n in Names(sections)
      ensures n in Names(all)
    {
      var j :| 0 <= j < |sections| && sections[j].name == n;
      assert all[j].name == n;
    }
    assert all[|sections|].name == s.name;
  }

  lemma ExtendPutExisting<T>(sections: seq<Section<T>>, key: T -> string, x: T, rest: seq<T>)
    requires DistinctNames(sections)
    requires SectionNamed(sections, key(x)).Some?
    ensures Extend(Put(sections, key, x), rest, key) == Extend(sections, [x] + rest, key)
  {
    var i := SectionNamed(sections, key(x)).value;
    var put := sections[i := sections[i].(items := sections[i].items + [x])];
    assert Put(sections, key, x) == put;
    var e1 := Extend(put, rest, key);
    var e2 := Extend(sections, [x] + rest, key);
    forall j | 0 <= j < |sections|
      ensures e1[j] == e2[j]
    {
      ExtendPutAt(sections, i, j, key, x, rest);
    }
    assert e1 == e2;
  }

  /** `ExtendPutExisting` at one section index `j`, with `i` the index of
      the record's section. */
  lemma ExtendPutAt<T>(sections: seq<Section<T>>, i: nat, j: nat, key: T -> string, x: T, rest: seq<T>)
    requires i < |sections| && j < |sections| && DistinctNames(sections) && sections[i].name == key(x)
    ensures var put := sections[i := sections[i].(items := sections[i].items + [x])];
      Extend(put, rest, key)[j] == Extend(sections, [x] + rest, key)[j]
  {
    var n := sections[j].name;
    SelectCons(x, rest, key, n);
    if j == i {
      assert (sections[j].items + [x]) + Select(rest, key, n) == sections[j].items + ([x] + Select(rest, key, n));
    } else {
      assert n != key(x);
    }
  }

  /** Extending sections with one more section at the end. */
  lemma ExtendAppend<T>(sections: seq<Section<T>>, c: Section<T>, rest: seq<T>, key: T -> string)
    ensures Extend(sections + [c], rest, key) ==
      Extend(sections, rest, key) + [c.(items := c.items + Select(rest, key, c.name))]
  {
    var lhs := Extend(sections + [c], rest, key);
    var rhs := Extend(sections, rest, key) + [c.(items := c.items + Select(rest, key, c.name))];
    forall j | 0 <= j < |lhs|
      ensures lhs[j] == rhs[j]
    {
      if j < |sections| {
        assert (sections + [c])[j] == sections[j];
      }
    }
  }

  /** New sections for one more key in front. */
  lemma FreshCons<T>(k: string, ks: seq<string>, xs: seq<T>, key: T -> string)
    ensures Fresh([k] + ks, xs, key) == [NewSection(k).(items := Select(xs, key, k))] + Fresh(ks, xs, key)
  {
    var lhs := Fresh([k] + ks, xs, key);
    var rhs := [NewSection(k).(items := Select(xs, key, k))] + Fresh(ks, xs, key);
    forall j | 0 <= j < |lhs|
      ensures lhs[j] == rhs[j]
    {
      if j > 0 {
        assert ([k] + ks)[j] == ks[j - 1];
      }
    }
  }

  /** Filing into an existing section, then merging the rest, is merging all. */
  lemma MergeAfterPutExisting<T>(sections: seq<Section<T>>, key: T -> string, x: T, rest: seq<T>)
    requires DistinctNames(sections)
    requires SectionNamed(sections, key(x)).Some?
    ensures Merge(Put(sections, key, x), rest, key) == Merge(sections, [x] + rest, key)
  {
    NamesPutExisting(sections, key, x);
    ExtendPutExisting(sections, key, x, rest);
    var ks := NewKeys(rest, key, Names(sections));
    assert key(x) in Names(sections);
    assert NewKeys([x] + rest, key, Names(sections)) == ks by {
      assert ([x] + rest)[0] == x && ([x] + rest)[1..] == rest;
    }
    NewKeysAreNew(rest, key, Names(sections));
    FreshOther(ks, x, rest, key);
  }

  /** Filing into a new section, then merging the rest, is merging all. */
  lemma MergeAfterPutNew<T>(sections: seq<Section<T>>, key: T -> string, x: T, rest: seq<T>)
    requires SectionNamed(sections, key(x)).None?
    ensures Merge(Put(sections, key, x), rest, key) == Merge(sections, [x] + rest, key)
  {
    MergeAfterPutNewLeft(sections, key, x, rest);
    MergeAfterPutNewRight(sections, key, x, rest);
  }

  /** The section a new record opens, once the rest of the records are in. */
  function Opened<T>(key: T -> string, x: T, rest: seq<T>): Section<T>
  {
    NewSection(key(x)).(items := [x] + Select(rest, key, key(x)))
  }

  lemma MergeAfterPutNewLeft<T>(sections: seq<Section<T>>, key: T -> string, x: T, rest: seq<T>)
    requires SectionNamed(sections, key(x)).None?
    ensures Merge(Put(sections, key, x), rest, key) ==
      Extend(sections, rest, key) + [Opened(key, x, rest)] + Fresh(NewKeys(rest, key, Names(sections) + {key(x)}), rest, key)
  {
    var created := NewSection(key(x)).(items := [x]);
    assert Put(sections, key, x) == sections + [created];
    NamesAppend(sections, created);
    ExtendAppend(sections, created, rest, key);
  }

  lemma MergeAfterPutNewRight<T>(sections: seq<Section<T>>, key: T -> string, x: T, rest: seq<T>)
    requires SectionNamed(sections, key(x)).None?
    ensures Merge(sections, [x] + rest, key) ==
      Extend(sections, rest, key) + [Opened(key, x, rest)] + Fresh(NewKeys(rest, key, Names(sections) + {key(x)}), rest, key)
  {
    var k := key(x);
    var ks := NewKeys(rest, key, Names(sections) + {k});
    assert k !in Names(sections);
    assert NewKeys([x] + rest, key, Names(sections)) == [k] + ks by {
      assert ([x] + rest)[0] == x && ([x] + rest)[1..] == rest;
    }
    NewKeysAreNew(rest, key, Names(sections) + {k});
    ExtendOther(sections, x, rest, key);
    SelectCons(x, rest, key, k);
    FreshCons(k, ks, [x] + rest, key);
    FreshOther(ks, x, rest, key);
  }

  /** Merging nothing leaves the sections as they are. */
  lemma MergeNothing<T>(sections: seq<Section<T>>, key: T -> string)
    ensures Merge(sections, [], key) == sections
  {
    forall j | 0 <= j < |sections|
      ensures Extend(sections, [], key)[j] == sections[j]
    {
      assert Select([], key, sections[j].name) == [];
      assert sections[j].items + [] == sections[j].items;
    }
    assert NewKeys([], key, Names(sections)) == [];
  }

  /** The filing loop of `reload` merges the records into the sections. */
  lemma {:induction false} DistributeMerges<T(!new)>(p: Provider<T>, xs: seq<T>)
    requires !p.sectionHandler
    requires DistinctNames(p.sections)
    ensures Distribute(p, xs).sections == Merge(p.sections, xs, p.sectionKey)
    decreases |xs|
  {
    if |xs| == 0 {
      MergeNothing(p.sections, p.sectionKey);
    } else {
      var x := xs[0];
      var q := FileItem(p, x).next;
      FileItemPuts(p, x);
      PutKeepsDistinct(p.sections, p.sectionKey, x);
      DistributeMerges(q, xs[1..]);
      assert xs == [x] + xs[1..];
      if SectionNamed(p.sections, p.sectionKey(x)).Some? {
        MergeAfterPutExisting(p.sections, p.sectionKey, x, xs[1..]);
      } else {
        MergeAfterPutNew(p.sections, p.sectionKey, x, xs[1..]);
      }
    }
  }

  /** Started from no sections, `reload` builds `Group` of the prepared
      records, re-sorted when the chain has more than one comparator. */
  lemma ReloadFromNothingGroups<T(!new)>(p: Provider<T>)
    requires p.reloadHandler && p.items.Some? && p.sections == []
    ensures var g := Group(Prepared(p, p.items.value), p.sectionKey);
      Reload(p).next.sections == if |p.itemSort| > 1 then ResortSections(g, p.itemSort[1..]) else g
  {
    var detached := p.(sectionHandler := false, itemHandler := false);
    var prepared := Prepared(p, p.items.value);
    ReloadFiles(p);
    DistributeMerges(detached, prepared);
    MergeFromNothing(prepared, p.sectionKey);
  }

  /** The sections a configuration yields from no sections: the prepared
      records grouped by key, re-sorted when the chain has more than one
      comparator. */
  function Regrouped<T(!new)>(p: Provider<T>, xs: seq<T>): seq<Section<T>>
  {
    var g := Group(Prepared(p, xs), p.sectionKey);
    if |p.itemSort| > 1 then ResortSections(g, p.itemSort[1..]) else g
  }

  /** `sort(_:)` on a provider with a reload handler and no sections yet
      regroups the master list under the extended chain. */
  lemma AppendSortRegroups<T(!new)>(p: Provider<T>, cmp: (T, T) -> bool)
    requires p.reloadHandler && p.items.Some? && p.sections == []
    ensures AppendSort(p, cmp).next.sections == Regrouped(p.(itemSort := p.itemSort + [cmp]), p.items.value)
  {
    ReloadFromNothingGroups(p.(itemSort := p.itemSort + [cmp]));
  }

  /** `filter(_:)` on a provider with a reload handler and no sections yet
      regroups the master list under the new filter. */
  lemma SetFilterRegroups<T(!new)>(p: Provider<T>, f: T -> bool)
    requires p.reloadHandler && p.items.Some? && p.sections == []
    ensures SetFilter(p, f).next.sections == Regrouped(p.(filter := Some(f)), p.items.value)
  {
    ReloadFromNothingGroups(p.(filter := Some(f)));
  }

  /** Setting the key path on a provider with a reload handler and no
      sections yet groups the master list by the new key. */
  lemma SetSectionKeyRegroups<T(!new)>(p: Provider<T>, key: T -> string)
    requires p.reloadHandler && p.items.Some? && p.sections == []
    ensures SetSectionKey(p, key).next.sections == Regrouped(p.(sectionKey := key), p.items.value)
  {
    ReloadFromNothingGroups(p.(sectionKey := key));
  }

  /** Attaching the reload handler to a provider with a master list and no
      sections builds the grouping: the first load. */
  lemma SetReloadHandlerRegroups<T(!new)>(p: Provider<T>)
    requires p.items.Some? && p.sections == []
    ensures SetReloadHandler(p, true).next.sections == Regrouped(p, p.items.value)
  {
    ReloadFromNothingGroups(p.(reloadHandler := true));
  }

  /** With a reload handler and a master list, `reload` files the prepared
      records with the change handlers detached, then re-sorts. */
  lemma ReloadFiles<T(!new)>(p: Provider<T>)
    requires p.reloadHandler && p.items.Some?
    ensures var grouped := Distribute(p.(sectionHandler := false, itemHandler := false), Prepared(p, p.items.value)).sections;
      Reload(p).next.sections == if |p.itemSort| > 1 then ResortSections(grouped, p.itemSort[1..]) else grouped
  {
  }

  /** Merging into no sections is grouping. */
  lemma MergeFromNothing<T>(xs: seq<T>, key: T -> string)
    ensures Merge([], xs, key) == Group(xs, key)
  {
    assert Extend([], xs, key) == [];
    assert Names<T>([]) == {};
  }

  /** Re-sorting every section changes no name and no section's records. */
  lemma {:induction false} ResortKeepsItems<T(!new)>(sections: seq<Section<T>>, cmps: seq<(T, T) -> bool>)
    ensures AllItems(ResortSections(sections, cmps)) == AllItems(sections)
  {
    if |sections| > 0 {
      assert ResortSections(sections, cmps)[1..] == ResortSections(sections[1..], cmps);
      ResortKeepsItems(sections[1..], cmps);
    }
  }

  /** `reload` from no sections partitions the prepared records (the master
      list sorted by the first comparator and filtered) by section key:
      sections appear in the order their keys are first seen, no name twice,
      none empty, and each holds only records of its key. */
  lemma ReloadPartitions<T(!new)>(p: Provider<T>)
    requires p.reloadHandler && p.items.Some? && p.sections == []
    ensures var prepared := Prepared(p, p.items.value);
      var s := Reload(p).next.sections;
      && |s| == |NewKeys(prepared, p.sectionKey, {})|
      && (forall j :: 0 <= j < |s| ==> s[j].name == NewKeys(prepared, p.sectionKey, {})[j])
      && DistinctNames(s)
      && NoneEmpty(s)
      && Keyed(s, p.sectionKey)
  {
    var prepared := Prepared(p, p.items.value);
    var g := Group(prepared, p.sectionKey);
    ReloadFromNothingGroups(p);
    GroupSections(prepared, p.sectionKey);
    GroupKeyed(prepared, p.sectionKey);
    if |p.itemSort| > 1 {
      ResortKeepsShape(g, p.itemSort[1..], p.sectionKey);
    }
  }

  /** Every record of every section has that section's name as its key. */
  ghost predicate Keyed<T>(sections: seq<Section<T>>, key: T -> string) {
    forall j, i :: 0 <= j < |sections| && 0 <= i < |sections[j].items| ==> key(sections[j].items[i]) == sections[j].name
  }

  /** Re-sorting the records inside each section keeps names distinct,
      sections non-empty and records under their own key. */
  lemma ResortKeepsShape<T(!new)>(g: seq<Section<T>>, cmps: seq<(T, T) -> bool>, key: T -> string)
    ensures var r := ResortSections(g, cmps);
      && (DistinctNames(g) ==> DistinctNames(r))
      && (NoneEmpty(g) ==> NoneEmpty(r))
      && (Keyed(g, key) ==> Keyed(r, key))
  {
    var r := ResortSections(g, cmps);
    if NoneEmpty(g) {
      forall j | 0 <= j < |r|
        ensures |r[j].items| > 0
      {
        assert |multiset(r[j].items)| == |multiset(g[j].items)|;
      }
    }
    if Keyed(g, key) {
      forall j, i | 0 <= j < |r| && 0 <= i < |r[j].items|
        ensures key(r[j].items[i]) == r[j].name
      {
        assert r[j].items[i] in multiset(g[j].items);
      }
    }
  }

  /** Filing records into valid sections keeps them valid: the grown
      sections keep their names and are not empty, and the new ones carry
      fresh, pairwise distinct names and at least one record each. */
  lemma MergeKeepsShape<T>(sections: seq<Section<T>>, xs: seq<T>, key: T -> string)
    requires DistinctNames(sections) && NoneEmpty(sections)
    ensures DistinctNames(Merge(sections, xs, key)) && NoneEmpty(Merge(sections, xs, key))
  {
    MergeNoneEmpty(sections, xs, key);
    MergeDistinct(sections, xs, key);
  }

  /** Filing records into non-empty sections leaves no section empty. */
  lemma MergeNoneEmpty<T>(sections: seq<Section<T>>, xs: seq<T>, key: T -> string)
    requires NoneEmpty(sections)
    ensures NoneEmpty(Merge(sections, xs, key))
  {
    var ks := NewKeys(xs, key, Names(sections));
    var e := Extend(sections, xs, key);
    var f := Fresh(ks, xs, key);
    var m := Merge(sections, xs, key);
    NewKeysOccur(xs, key, Names(sections));
    forall j | 0 <= j < |m|
      ensures |m[j].items| > 0
    {
      if j >= |e| {
        assert m[j] == f[j - |e|];
        assert KeyOccurs(xs, key, ks[j - |e|]);
        var i :| 0 <= i < |xs| && key(xs[i]) == ks[j - |e|];
        SelectOfPresentKey(xs, key, i);
      } else {
        assert m[j] == e[j];
      }
    }
  }

  /** Filing records into sections with distinct names keeps names distinct. */
  lemma MergeDistinct<T>(sections: seq<Section<T>>, xs: seq<T>, key: T -> string)
    requires DistinctNames(sections)
    ensures DistinctNames(Merge(sections, xs, key))
  {
    var e := Extend(sections, xs, key);
    var f := Fresh(NewKeys(xs, key, Names(sections)), xs, key);
    var m := Merge(sections, xs, key);
    NewKeysDistinct(xs, key, Names(sections));
    NewKeysAreNew(xs, key, Names(sections));
    forall i, j | 0 <= i < j < |m|
      ensures m[i].name != m[j].name
    {
      if j < |e| {
        assert m[i].name == sections[i].name && m[j].name == sections[j].name;
      } else if i >= |e| {
        assert m[i] == f[i - |e|] && m[j] == f[j - |e|];
      } else {
        assert m[i].name == sections[i].name && sections[i].name in Names(sections);
        assert m[j] == f[j - |e|];
      }
    }
  }

  /** `reload` keeps distinct names and non-empty sections. */
  lemma ReloadKeepsShape<T(!new)>(p: Provider<T>)
    requires DistinctNames(p.sections) && NoneEmpty(p.sections)
    ensures DistinctNames(Reload(p).next.sections) && NoneEmpty(Reload(p).next.sections)
  {
    if p.reloadHandler && p.items.Some? {
      var detached := p.(sectionHandler := false, itemHandler := false);
      var prepared := Prepared(p, p.items.value);
      DistributeMerges(detached, prepared);
      MergeKeepsShape(p.sections, prepared, p.sectionKey);
      if |p.itemSort| > 1 {
        ResortKeepsShape(Distribute(detached, prepared).sections, p.itemSort[1..], p.sectionKey);
      }
    }
  }

  /** A group built by `Group` files each record under its own key. */
  lemma GroupKeyed<T>(xs: seq<T>, key: T -> string)
    ensures Keyed(Group(xs, key), key)
  {
    GroupSections(xs, key);
  }

  /** Together the sections `reload` builds from nothing hold every prepared
      record exactly once: each master record the filter keeps, as often as
      the master list holds it, and nothing else. */
  lemma ReloadCoversFiltered<T(!new)>(p: Provider<T>)
    requires p.reloadHandler && p.items.Some? && p.sections == []
    ensures var s := Reload(p).next.sections;
      && AllItems(s) == multiset(Prepared(p, p.items.value))
      && (forall y :: AllItems(s)[y] ==
            if p.filter.None? || p.filter.value(y) then multiset(p.items.value)[y] else 0)
  {
    var prepared := Prepared(p, p.items.value);
    var g := Group(prepared, p.sectionKey);
    ReloadFromNothingGroups(p);
    GroupCovers(prepared, p.sectionKey);
    if |p.itemSort| > 1 {
      ResortKeepsItems(g, p.itemSort[1..]);
    }
  }

  /** With one comparator each section keeps the order of the sorted master
      list (so is sorted by it); with more, the last comparator's re-sort
      decides the order. */
  lemma ReloadOrdersSections<T(!new)>(p: Provider<T>)
    requires p.reloadHandler && p.items.Some? && p.sections == []
    ensures var s := Reload(p).next.sections;
      && (|p.itemSort| <= 1 ==> forall j :: 0 <= j < |s| ==>
            s[j].items == Select(Prepared(p, p.items.value), p.sectionKey, s[j].name))
      && (|p.itemSort| == 1 && Ordering.StrictWeakOrder(p.itemSort[0]) ==>
            forall j :: 0 <= j < |s| ==> Ordering.Sorted(p.itemSort[0], s[j].items))
      && (|p.itemSort| > 1 && Ordering.StrictWeakOrder(p.itemSort[|p.itemSort| - 1]) ==>
            forall j :: 0 <= j < |s| ==> Ordering.Sorted(p.itemSort[|p.itemSort| - 1], s[j].items))
  {
    ReloadFromNothingGroups(p);
    assert Reload(p).next.sections == Regrouped(p, p.items.value);
    RegroupedOrdered(p, p.items.value);
  }

  /** `ReloadOrdersSections` for the regrouped sections themselves. */
  lemma RegroupedOrdered<T(!new)>(p: Provider<T>, xs: seq<T>)
    ensures var s := Regrouped(p, xs);
      && (|p.itemSort| <= 1 ==> forall j :: 0 <= j < |s| ==>
            s[j].items == Select(Prepared(p, xs), p.sectionKey, s[j].name))
      && (|p.itemSort| == 1 && Ordering.StrictWeakOrder(p.itemSort[0]) ==>
            forall j :: 0 <= j < |s| ==> Ordering.Sorted(p.itemSort[0], s[j].items))
      && (|p.itemSort| > 1 && Ordering.StrictWeakOrder(p.itemSort[|p.itemSort| - 1]) ==>
            forall j :: 0 <= j < |s| ==> Ordering.Sorted(p.itemSort[|p.itemSort| - 1], s[j].items))
  {
    var prepared := Prepared(p, xs);
    if |p.itemSort| <= 1 {
      GroupSections(prepared, p.sectionKey);
      if |p.itemSort| == 1 && Ordering.StrictWeakOrder(p.itemSort[0]) {
        GroupSorted(p.itemSort[0], prepared, p.sectionKey);
      }
    } else {
      var tail := p.itemSort[1..];
      assert tail[|tail| - 1] == p.itemSort[|p.itemSort| - 1];
    }
  }

  /** Grouping a sorted sequence gives sorted sections. */
  lemma GroupSorted<T>(lt: (T, T) -> bool, xs: seq<T>, key: T -> string)
    requires Ordering.Sorted(lt, xs)
    ensures forall j :: 0 <= j < |Group(xs, key)| ==> Ordering.Sorted(lt, Group(xs, key)[j].items)
  {
    var g := Group(xs, key);
    forall j | 0 <= j < |g|
      ensures Ordering.Sorted(lt, g[j].items)
    {
      SelectSorted(lt, xs, key, g[j].name);
    }
  }

  /** Selecting from a sorted sequence keeps it sorted. */
  lemma {:induction false} SelectSorted<T>(lt: (T, T) -> bool, xs: seq<T>, key: T -> string, k: string)
    requires Ordering.Sorted(lt, xs)
    ensures Ordering.Sorted(lt, Select(xs, key, k))
  {
    if |xs| > 0 {
      SelectSorted(lt, xs[1..], key, k);
      var tail := Select(xs[1..], key, k);
      SelectFrom(xs[1..], key, k);
      forall i | 0 <= i < |tail|
        ensures !lt(tail[i], xs[0])
      {
        assert tail[i] in multiset(tail);
        assert tail[i] in xs[1..];
        var m :| 0 <= m < |xs[1..]| && xs[1..][m] == tail[i];
        assert xs[m + 1] == tail[i];
      }
      if key(xs[0]) == k {
        assert Select(xs, key, k) == [xs[0]] + tail;
        Ordering.ConsSorted(lt, xs[0], tail);
      } else {
        assert Select(xs, key, k) == tail;
      }
    }
  }

  /** Selected records are records of the sequence. */
  lemma {:induction false} SelectFrom<T>(xs: seq<T>, key: T -> string, k: string)
    ensures multiset(Select(xs, key, k)) <= multiset(xs)
  {
    if |xs| > 0 {
      SelectFrom(xs[1..], key, k);
      assert xs == [xs[0]] + xs[1..];
    }
  }
}

=== FILE: section_info.dfy ===
/** `DataProviderSectionInfo`: a named section of items. Two sections are the
    same section when their names are equal; the items play no part. */
module SectionInfo {
  import opened Optional
  import Sequences

  datatype Section<+T> = Section(name: string, indexTitle: Option<string>, items: seq<T>)
  {
    /** The item count is derived from the items, never stored. */
    function NumberOfItems(): nat
    {
      |items|
    }
  }

  /** `init(name:)`: a section with the given name and nothing else. */
  function NewSection<T>(name: string): (s: Section<T>)
    ensures s.name == name && s.indexTitle.None?
    ensures s.NumberOfItems() == 0
  {
    Section(name, None, [])
  }

  /** The section `==`: equality of names. */
  predicate SameSection<T>(a: Section<T>, b: Section<T>)
  {
    a.name == b.name
  }

  /** `hashValue`: the hash of the name, for a given string hash. */
  function HashValue<T>(s: Section<T>, hash: string -> int): int
  {
    hash(s.name)
  }

  /** Equal sections hash alike, whatever their items; and sections differing
      only in items and index title are equal. */
  lemma {:induction false} SameSectionHashesAlike<T>(a: Section<T>, b: Section<T>, hash: string -> int)
    ensures SameSection(a, b) <==> a.name == b.name
    ensures SameSection(a, b) ==> HashValue(a, hash) == HashValue(b, hash)
    ensures SameSection(a, b.(items := a.items, indexTitle := a.indexTitle)) == SameSection(a, b)
  {
  }

  /** `Array.contains(_:)` over sections: membership by name. */
  function Contains<T>(sections: seq<Section<T>>, e: Section<T>): (r: bool)
    ensures r <==> exists i :: 0 <= i < |sections| && sections[i].name == e.name
  {
    Sequences.IndexOf(sections, e, SameSection).Some?
  }

  /** The index of the first section with the given name. */
  function SectionNamed<T>(sections: seq<Section<T>>, name: string): (r: Option<nat>)
    ensures r.Some? ==> r.value < |sections| && sections[r.value].name == name
    ensures r.Some? ==> forall k :: 0 <= k < r.value ==> sections[k].name != name
    ensures r.None? <==> forall k :: 0 <= k < |sections| ==> sections[k].name != name
  {
    Sequences.IndexOf(sections, NewSection(name), SameSection)
  }

  /** No two sections share a name. */
  ghost predicate DistinctNames<T>(sections: seq<Section<T>>)
  {
    forall i, j :: 0 <= i < j < |sections| ==> sections[i].name != sections[j].name
  }

  /** Every section holds at least one item. */
  ghost predicate NoneEmpty<T>(sections: seq<Section<T>>)
  {
    forall i :: 0 <= i < |sections| ==> |sections[i].items| > 0
  }

  /** The row count of every section, in order. */
  function Shape<T>(sections: seq<Section<T>>): (r: seq<nat>)
    ensures |r| == |sections|
    ensures forall i :: 0 <= i < |r| ==> r[i] == sections[i].NumberOfItems()
  {
    seq(|sections|, i requires 0 <= i < |sections| => sections[i].NumberOfItems())
  }
}

=== FILE: sequences.dfy ===
/** Array operations the provider relies on, written over sequences. */
module Sequences {
  import opened Optional

  /** Swift's `Array.indexOf(_:)`: the index of the first element that `eq`
      (the element type's `==`) relates to `x`, or `None`. */
  function IndexOf<T>(xs: seq<T>, x: T, eq: (T, T) -> bool): (r: Option<nat>)
    ensures r.Some? ==> r.value < |xs| && eq(xs[r.value], x)
    ensures r.Some? ==> forall k :: 0 <= k < r.value ==> !eq(xs[k], x)
    ensures r.None? <==> forall k :: 0 <= k < |xs| ==> !eq(xs[k], x)
  {
    if |xs| == 0 then None
    else if eq(xs[0], x) then Some(0)
    else
      match IndexOf(xs[1..], x, eq)
      case None => None
      case Some(j) => Some(j + 1)
  }

  /** Swift's `removeAtIndex(_:)`. */
  function RemoveAt<T>(xs: seq<T>, i: nat): (r: seq<T>)
    requires i < |xs|
    ensures |r| == |xs| - 1
    ensures forall k :: 0 <= k < i ==> r[k] == xs[k]
    ensures forall k :: i <= k < |r| ==> r[k] == xs[k + 1]
  {
    xs[..i] + xs[i + 1..]
  }

  /** Swift's `insert(_:atIndex:)`. */
  function InsertAt<T>(xs: seq<T>, i: nat, x: T): (r: seq<T>)
    requires i <= |xs|
    ensures |r| == |xs| + 1 && r[i] == x
    ensures forall k :: 0 <= k < i ==> r[k] == xs[k]
    ensures forall k :: i < k < |r| ==> r[k] == xs[k - 1]
  {
    xs[..i] + [x] + xs[i..]
  }

  /** Swift's `filter(_:)`: the elements satisfying `keep`, in order. */
  function Filter<T(!new)>(xs: seq<T>, keep: T -> bool): (r: seq<T>)
    ensures |r| <= |xs|
    ensures forall k :: 0 <= k < |r| ==> keep(r[k])
    ensures multiset(r) <= multiset(xs)
    ensures forall y :: multiset(r)[y] == if keep(y) then multiset(xs)[y] else 0
  {
    if |xs| == 0 then []
    else
      assert xs == [xs[0]] + xs[1..];
      if keep(xs[0]) then [xs[0]] + Filter(xs[1..], keep)
      else Filter(xs[1..], keep)
  }
}
